=== FILE: README.md ===
# Basketball Peak Finder — a Dafny model of `peakfinder.py`

The peak finder looks a player up by name and reads the player's
basketball-reference page. It then joins each per-game table with its
advanced-statistics table on `Season` and scores every season as

    score = 2.5 * PER / max(PER) + 2.5 * WS / max(WS)

with both maxima taken over the same table. The player's peak is the
first season with the highest score. This project models that core:

- `base.dfy` (`Base`): optional values and results, and the Python exceptions the
  pipeline raises. It also holds the data-frame shape: a set of column labels
  and rows that map labels to cells (text, number or NaN).
- `scoring.dfy` (`Scoring`): `peak_calculation` and the `sum` column.
- `selection.dfy` (`Selection`): `determine_peak_season`, i.e. pandas `idxmax`,
  the eight-field `peak_list` and the career series.
- `tables.dfy` (`Tables`): the pure part of `player_tables`, i.e. the column
  drop, the full outer join on `Season`, the `'-'` season filter and
  `dropna`, for both branches.
- `pipeline.dfy` (`Pipeline`): `player_stats` once the tables are fetched.
- `text.dfy` (`Text`): the Python string operations involved (`strip`, `lower`,
  `in`, `split`, `join`, `replace`).
- `info.dfy` (`PlayerInfo`): `player_info`, `get_player` and the page address.

Each operation is a pure function. Its contract relates the result to a
reference meaning: the unique stripped form, the first maximum, the last
paragraph that gives a field, and the sets of seasons and rows of a join.

## Model

| member | source | states |
|---|---|---|
| Scoring.MaxPresent | peakfinder.py:79-80 | pandas `max` skips NaN: the result is NaN exactly when every entry is NaN, otherwise a value attained in the series that bounds every present entry |
| Scoring.MaxPer | peakfinder.py:79 | the PER denominator is a positive maximum of that table's own PER column |
| Scoring.MaxWs | peakfinder.py:80 | the WS denominator is a positive maximum of that table's own WS column |
| Scoring.Scores | peakfinder.py:75-84 | one score per row, index-aligned; a row scores NaN exactly when its PER or WS is NaN, and otherwise scores the sum of its two normalised terms against the table's maxima |
| Scoring.AddScoreColumn | peakfinder.py:98 | `reg['sum'] = ...` adds the `sum` column holding the scores row by row; every other column of every row is unchanged |
| Scoring.ScoreAtMostFive | peakfinder.py:79-82 | no season scores above 5, since each normalised term is at most 2.5 |
| Scoring.ScoreBounds | peakfinder.py:79-82 | with non-negative PER and WS, every score lies in [0, 5] |
| Scoring.DoubleMaximumScoresFive | peakfinder.py:79-82 | a season holding both the PER maximum and the WS maximum scores exactly 5 |
| Scoring.ScoreMonotone | peakfinder.py:79-82 | a season at least as good on both metrics scores at least as high |
| Selection.PeakFields | peakfinder.py:101-103 | `peak_list` holds eight cells of the chosen row |
| Selection.PeakFieldsExactly | peakfinder.py:101-103 | two rows give the same `peak_list` exactly when they agree on Season, Tm, PER, WS, FG%, PTS, AST and TRB, so the list reads those eight columns and no other |
| Selection.IdxMax | peakfinder.py:99 | `idxmax` skipping NaN: no index exactly when every entry is NaN, otherwise the first index of the maximum (ties go to the earliest season) |
| Selection.PeakIndex | peakfinder.py:98-99 | the chosen row is the first argmax of the table's score series |
| Selection.Summarize | peakfinder.py:98-112 | the summary meets its reference meaning: seasons, scores and per-game series are index-aligned with the rows, and `peak_list` holds Season, Tm, PER, WS, FG%, PTS, AST, TRB of the first highest-scoring season |
| Selection.DeterminePeakSeason | peakfinder.py:87-130 | the regular summary meets its reference meaning; the playoff summary is absent exactly when the playoff table is empty, and otherwise meets its reference meaning for the playoff table |
| Selection.SummaryUnique | peakfinder.py:87-130 | the reference meaning fixes a table's summary completely, the peak included |
| Selection.PlayoffSummaryIndependent | peakfinder.py:114-128 | the playoff summary does not depend on the regular-season table |
| Selection.DoubleMaximumIsPeak | peakfinder.py:98-103 | if a season holds both maxima, the peak scores exactly 5 and is that season or an earlier one |
| Tables.DropColumns | peakfinder.py:237 | `drop` succeeds exactly when every label is a column, with `KeyError` naming the missing labels otherwise; it removes exactly those columns and keeps every other cell |
| Tables.Where | peakfinder.py:269 | boolean-mask selection keeps exactly the rows the mask accepts and adds none |
| Tables.WhereAppend | peakfinder.py:269-270 | selection distributes over concatenation, so kept rows keep their relative order |
| Tables.WhereIdempotent | peakfinder.py:269-270 | filtering twice with the same mask is filtering once |
| Tables.WhereAll | peakfinder.py:269-270 | a mask that accepts every row keeps the table as it is |
| Tables.FilterSeasons | peakfinder.py:269-270 | the kept rows are exactly those whose season is text containing '-', in their original relative order (the mask selection `Where`, whose order `Tables.WhereAppend` fixes); the `Career` row is never kept |
| Tables.DropNa | peakfinder.py:291 | the kept rows are exactly those without a NaN cell, in their original relative order (the mask selection `Where`) |
| Tables.OuterMerge | peakfinder.py:265-266 | the seasons of the join are the union of both sides' seasons; every output row, cut down to one side's columns, is a row of that side or NaN there apart from the key; every output row comes from a row of at least one side; every input row survives in some output row; every left row and right row of one season are joined in one output row; a row is padded with NaN only for a season one side lacks |
| Tables.Prepare | peakfinder.py:261-270 | drop, join and filter: succeeds exactly when the identity columns are present; the result's seasons are the input seasons containing '-'; every row comes from a per-game row or an advanced row, and cut down to each side is that side's row or NaN there; every per-game row and every advanced row with a '-' season survives in some row; every per-game row and advanced row of one '-' season are joined in one row, and NaN padding happens only for a season one table lacks; identity columns left in the result come from the advanced table |
| Tables.PlayerTables | peakfinder.py:234-291 | both branches, with the no-playoffs join corrected: `KeyError` exactly when a dropped label is missing; with playoffs the two tables are the drop-join-filter results of the regular and playoff pairs; every kept regular row has a '-' season; without playoffs the playoff frame is empty and the regular table is `dropna` of the drop-join-filter result, so the rows without NaN in their order |
| Tables.NoPlayoffTablesAsWritten | peakfinder.py:284-288 | the no-playoffs branch as written never succeeds: `KeyError` when the drop fails, otherwise `NameError` for `adv_df` |
| Tables.PlayerTablesAsWritten | peakfinder.py:245-291 | as written, the made-playoffs branch is the modelled one and the other branch always raises |
| Tables.NoPlayoffsAsWrittenFails | peakfinder.py:284-291 | for every player without playoffs whose table has the identity columns, the written code raises `NameError` where the corrected join succeeds |
| Pipeline.PlayerStats | peakfinder.py:294-315 | built on the corrected `player_tables`: the peak data exists exactly when the tables were prepared and is `determine_peak_season` of them; the regular summary meets the reference meaning of the prepared regular table; the playoff summary is absent exactly when the prepared playoff frame is empty, otherwise it meets the reference meaning of that frame; without playoffs there is no playoff summary; no peak is on a season without '-' such as `Career` |
| Pipeline.PeakIsSeasonRow | peakfinder.py:269-270 | a summary of a season-filtered table peaks on a '-' season label |
| Text.Strip | peakfinder.py:141 | `strip()` yields the slice of the input between its leading and trailing whitespace (Python's `isspace` set), neither end being whitespace |
| Text.StripUnique | peakfinder.py:141 | a string has only one stripped form |
| Text.StripIdempotent | peakfinder.py:141 | stripping twice is stripping once |
| Text.StripPadding | peakfinder.py:141 | whitespace around a string does not change its stripped form |
| Text.Lower | peakfinder.py:141 | `lower()` keeps the length and folds each ASCII capital to its small letter |
| Text.LowerIdempotent | peakfinder.py:141 | lowering twice is lowering once |
| Text.StripLower | peakfinder.py:141 | lowering and stripping commute |
| Text.SplitOnce | peakfinder.py:191-197 | `split(c, 1)` gives one piece exactly when c is absent; two pieces rejoin with c to the input, the first free of c |
| Text.SplitOnceJoin | peakfinder.py:191-197 | splitting at a separator the head does not hold gives back head and tail |
| Text.Contains | peakfinder.py:172-174 | `sub in s`: sub occurs at some index of s |
| Text.Join | peakfinder.py:210 | `'/'.join` of one piece is that piece; with pieces free of the separator, the separator occurs exactly when there are two or more pieces |
| Text.SplitJoin | peakfinder.py:210 | splitting a `'/'.join` of pieces free of '/' gives back the pieces |
| Text.RemoveNewlines | peakfinder.py:188 | `replace('\n', '')` leaves no newline, keeps every other character and is no longer than its input; with RemoveNewlinesAppend this fixes the result, order and repeats included |
| Text.RemoveNewlinesAppend | peakfinder.py:188 | removing newlines from a concatenation removes them from each part and concatenates the results, so the kept characters keep their order and number |
| Text.RemoveNoNewlines | peakfinder.py:188 | text without newlines is left as it is |
| PlayerInfo.Inner | peakfinder.py:175 | `word[1:-1]` is the word without its first and last character, and empty for a word shorter than two characters |
| PlayerInfo.FirstNickname | peakfinder.py:175-176 | the nickname is the text after the first character up to the first comma, or up to the last character |
| PlayerInfo.ParsePositionLine | peakfinder.py:187-199 | the position line parses exactly when it has ':', then '▪' after it, then ':' after that; otherwise `IndexError` |
| PlayerInfo.PositionLineRoundTrip | peakfinder.py:187-199 | a line laid out as `label: positions ▪ Shoots: hand` parses back into its stripped positions and hand |
| PlayerInfo.ParseCollegeLine | peakfinder.py:201-207 | the college line parses exactly when it has ':'; otherwise `IndexError` |
| PlayerInfo.CollegeLineRoundTrip | peakfinder.py:201-207 | a line laid out as `label: college` parses back into its stripped college |
| PlayerInfo.Step | peakfinder.py:168-207 | one loop iteration: a nickname is taken only while still open; a Position label closes it; position, hand and college lines overwrite earlier ones; raises exactly when a triggered parser fails |
| PlayerInfo.ScanParagraphs | peakfinder.py:168-207 | the paragraph loop raises exactly when some paragraph's triggered parser fails |
| PlayerInfo.ScanNickDone | peakfinder.py:171-182 | the loop stops looking for a nickname exactly when some paragraph read as one or held the position |
| PlayerInfo.ScanNickname | peakfinder.py:171-182 | the nickname comes from the first paragraph that reads as a nickname or is labelled Position, if that paragraph reads as a nickname; else "None" |
| PlayerInfo.ScanPosition | peakfinder.py:179-199 | position and hand come from the last paragraph labelled Position |
| PlayerInfo.ScanCollege | peakfinder.py:183-207 | the college comes from the last paragraph labelled College, else "None" |
| PlayerInfo.LastWhere | peakfinder.py:168-207 | the last paragraph with a property, and none after it |
| PlayerInfo.FirstWhere | peakfinder.py:171-182 | the first paragraph with a property, and none before it |
| PlayerInfo.Abbreviations | peakfinder.py:209 | the abbreviations listed are exactly those whose full position name occurs in the position text, at most one per entry; with AbbreviationsAppend this fixes the list in `position_dict` order |
| PlayerInfo.AbbreviationsAppend | peakfinder.py:209 | the list for a concatenated table is the list for each part, concatenated, so abbreviations follow the table's order and appear once per entry |
| PlayerInfo.AbbreviationListed | peakfinder.py:154-156 | for each `position_dict` entry, its abbreviation is listed if and only if its name occurs in the position text |
| PlayerInfo.CleanPosition | peakfinder.py:209-210 | splitting the joined position at '/' gives back the listed abbreviations |
| PlayerInfo.ReadInfo | peakfinder.py:153-216 | succeeds exactly when the height and info block exist, every triggered parser succeeds and some paragraph gives the position; otherwise `NameError` for `position` once the parsers succeed; the fields are the stripped height and the nickname, position, hand and college of the reference meaning |
| PlayerInfo.NormaliseName | peakfinder.py:141 | the key is the stripped form of the lowered name, so it has no ASCII capital and neither starts nor ends with whitespace |
| PlayerInfo.NormaliseIdempotent | peakfinder.py:141 | normalising a key leaves it as it is |
| PlayerInfo.NormaliseIgnoresPaddingAndCase | peakfinder.py:141 | the key of a name ignores surrounding whitespace and ASCII case |
| PlayerInfo.FindPlayer | peakfinder.py:146-150 | the identifier is found exactly when the normalised name is a database key |
| PlayerInfo.PlayerUrl | peakfinder.py:295-300 | the address is built exactly when the identifier is non-empty (`IndexError` otherwise), and it names that identifier back |
| PlayerInfo.UrlExtInverse | peakfinder.py:300 | every address of player-page shape is the address built from the identifier it names |
| PlayerInfo.LocatePlayer | peakfinder.py:328-331 | no address exactly when the name is not in the database (nothing is fetched then); otherwise the address of the player's own identifier |

## Left out

- HTTP requests, BeautifulSoup parsing, the Google Sheets reads in `sheets.py`, the
  picture download and removal, the command line, `print`, and reading
  `player_database.txt` are all left out. The page is given as its height text and its
  paragraphs (text plus `<strong>` labels), and the database as a map.
- Threads are left out. Each stage's exception is modelled as an `Err` result. In the
  program, an exception inside a worker thread ends that thread only, and
  `player_stats` carries on with whatever the thread had already stored on the player.
- The choice of table index and sheet range per branch is left out. The four tables a
  page yields are inputs.
- Floating point is left out. Scores are exact reals, and cells arrive already parsed.
  A non-numeric PER, WS, PTS, AST or TRB cell is excluded by precondition
  (`Scoring.Scorable`, `Selection.Peakable`) rather than modelled as `ValueError`.
- Scoring.MaxPer: a zero, negative or all-NaN maximum is excluded by precondition. A zero
  or all-NaN maximum makes the program produce inf or NaN scores. A negative maximum
  gives finite scores (a lone WS of -0.4 scores 2.5), and the model leaves that case
  out by choice, since the score bounds do not hold there.
- Selection.PeakIndex: a table where no season has both PER and WS is excluded by
  precondition. For a table with rows, `idxmax` skips every NaN and returns NaN, and
  the lookup `reg.loc[idx, 'Season']` at peakfinder.py:101 raises `KeyError`. For an
  empty table, `idxmax` itself raises `ValueError` at peakfinder.py:99, before line 101
  is reached.
- Selection.Peakable: a table missing `PER` or `WS`, or any of the eight `peak_list`
  columns (`Season`, `Tm`, `PER`, `WS`, `FG%`, `PTS`, `AST`, `TRB`), is excluded by
  precondition (`Scoring.Scorable` already demands `PER` and `WS`). On such a table
  pandas raises `KeyError`: at peakfinder.py:79-80 for `PER` or `WS`, and
  at peakfinder.py:101-103 for the other `peak_list` columns.
- Pipeline.PlayerStats: it composes the corrected `Tables.PlayerTables`. As written,
  `player_stats` fails for every player without playoffs: the table thread raises
  `NameError` at peakfinder.py:288, and `peak_calculation` then raises `KeyError` for
  `PER` at peakfinder.py:79. `Tables.NoPlayoffsAsWrittenFails` states the first half.
- Scoring.Scores: the maxima include every numeric row, the same as the source. No
  property is proved about rescaling a whole column.
- Tables.OuterMerge: the contract speaks of seasons and sets of rows, not of row order
  or how many times a duplicated season repeats. pandas sorts the keys of an outer
  join; the model lists the left rows first, then the unmatched right rows. The
  first-maximum tie-break therefore follows the model's order.
- Tables.Joinable: tables that share a column besides `Season` after the drop are
  excluded. pandas would rename such columns with `_x` and `_y` suffixes. A table
  without a `Season` column is excluded too. On it `pd.merge(..., on='Season')` at
  peakfinder.py:265-266 and 288 raises `KeyError`.
- Tables.PlayerTables: the no-playoffs filter in the source lacks `na=False`, so a NaN
  season would make pandas raise. The corrected branch treats a NaN season as not
  matching, as the made-playoffs branch does.
- `player_tables` drops the identity columns from the per-game tables. The advanced
  tables keep them, so `Tm` in `peak_list` is the advanced table's.
- Text.Lower: only ASCII capitals are folded. Python's full Unicode case mapping is
  left out.
- The `debug` prompt in `get_player`, the `help` and `debug` arguments of `retrieve`,
  and `Player.__repr__` are left out, because they are I/O.

## Findings

| source | as written | input that shows it | evidently intended | confidence | as-written member | corrected member |
|---|---|---|---|---|---|---|
| peakfinder.py:288 | the no-playoffs branch joins the regular table with `adv_df`, a name defined nowhere in the module, so it raises `NameError` after the in-place drop; `determine_peak_season` then reads `PER` from a table that never received it | any player whose playoff advanced table is empty and whose per-game table has the six identity columns | join with the regular advanced table `p.adv_data`, as line 265 does in the other branch | high; not executed | Tables.NoPlayoffTablesAsWritten | Tables.PlayerTables |

=== FILE: base.dfy ===
/** Shared vocabulary of the peak finder model: optional values, results with
    the Python exceptions the pipeline can raise, and the data-frame shape that
    every stage passes along. */
module Base {

  /** A value that may be absent (Python `None`, or pandas NaN for a number). */
  datatype Option<+T> = None | Some(value: T)

  /** The exceptions the modelled code can raise, named as Python names them. */
  datatype Error =
    | KeyError(labels: set<string>)   // pandas `drop` of labels the frame lacks
    | IndexError(what: string)        // `split(...)[1]` or `ext[0]` out of range
    | NameError(name: string)         // a name never defined, or read before it is bound
    | AttributeError(name: string)    // an attribute read on `None`

  datatype Result<+T> = Ok(value: T) | Err(error: Error) {
    predicate IsFailure() { Err? }

    function PropagateFailure<U>(): Result<U>
      requires Err?
    {
      Err(error)
    }

    function Extract(): T
      requires Ok?
    {
      value
    }
  }

  /** One cell of a data frame: text, an already-parsed number, or NaN. */
  datatype Cell = Text(s: string) | Num(x: real) | Missing

  /** A row maps each column label to its cell. */
  type Row = map<string, Cell>

  /** A pandas DataFrame: its column labels and its rows in index order. */
  datatype Frame = Frame(cols: set<string>, rows: seq<Row>)

  /** Every row carries exactly the frame's columns. */
  predicate WellFormed(f: Frame) {
    forall i :: 0 <= i < |f.rows| ==> f.rows[i].Keys == f.cols
  }

  /** pandas `DataFrame.empty`: no rows, or no columns. */
  predicate IsEmpty(f: Frame) {
    |f.rows| == 0 || f.cols == {}
  }

  /** The join key of both the per-game and the advanced tables. */
  const SeasonCol: string := "Season"

  /** The season cell of a row (NaN when the row has no such column). */
  function SeasonOf(row: Row): Cell {
    if SeasonCol in row then row[SeasonCol] else Missing
  }

  /** The set of season cells a sequence of rows holds. */
  function Seasons(rows: seq<Row>): set<Cell> {
    set i | 0 <= i < |rows| :: SeasonOf(rows[i])
  }
}

=== FILE: info.dfy ===
/** `player_info`, `get_player` and the page address of `player_stats`: the
    biographical fields read from the info box of a player's page, the
    normalised name looked up in the player database, and the page URL built
    from the player's identifier. */
module PlayerInfo {
  import opened Base
  import opened Text

  // ---------------------------------------------------------------- page

  /** One `<p>` of the info box: its text and the texts of its `<strong>` labels. */
  datatype Paragraph = Paragraph(text: string, labels: seq<string>)

  /** What the parser reads from a page: the height span's text and the
      paragraphs of the `info` block, each `None` when `soup.find` finds nothing. */
  datatype Page = Page(height: Option<string>, info: Option<seq<Paragraph>>)

  /** The fields `player_info` stores on the player. */
  datatype Info = Info(nicknames: string, position: string, height: string, hand: string, college: string)

  /** The placeholder for a nickname or college the page does not give. */
  const NoneText: string := "None"

  /** The separator between the position and the shooting hand. */
  const Bullet: char := '\U{25AA}'

  const IndexMessage: string := "list index out of range"

  /** `x.text.strip()`. */
  function Word(p: Paragraph): string {
    Strip(p.text)
  }

  /** Some `<strong>` label of the paragraph contains the key. */
  predicate Labelled(p: Paragraph, key: string) {
    exists j :: 0 <= j < |p.labels| && Contains(p.labels[j], key)
  }

  predicate HasPosition(p: Paragraph) {
    Labelled(p, "Position")
  }

  predicate HasCollege(p: Paragraph) {
    Labelled(p, "College")
  }

  /** A line that reads as a nickname: non-empty, with a parenthesis, and not
      a birth-name or former-name note. */
  predicate NickCandidate(word: string) {
    |word| != 0 && '(' in word && !Contains(word, "born") && !Contains(word, "formerly")
  }

  /** The paragraph's text reads as a nickname. */
  predicate NickLine(p: Paragraph) {
    NickCandidate(Word(p))
  }

  // ---------------------------------------------------------------- line parsers

  /** `word[1:-1]`: the word without its first and last character. */
  function Inner(word: string): (r: string)
    ensures |word| >= 2 ==> [word[0]] + r + [word[|word| - 1]] == word
    ensures |word| < 2 ==> r == ""
  {
    if |word| < 2 then "" else word[1..|word| - 1]
  }

  /** `','.join(word[1:-1].split(',')[:1])`: the first of the listed nicknames. */
  function FirstNickname(word: string): (r: string)
    ensures ',' !in r
    ensures |r| <= |Inner(word)| && r == Inner(word)[..|r|]
    ensures |r| < |Inner(word)| ==> Inner(word)[|r|] == ','
  {
    var parts := SplitOnce(Inner(word), ',');
    assert |parts| == 2 ==> (parts[0] + [','] + parts[1])[..|parts[0]|] == parts[0];
    parts[0]
  }

  /** The position line `Position: <positions> ▪ Shoots: <hand>`: the
      positions and the hand, each stripped, or the `IndexError` a missing
      separator raises. */
  function ParsePositionLine(word: string): (r: Result<(string, string)>)
    ensures r.Ok? <==>
              && ':' in RemoveNewlines(word)
              && Bullet in SplitOnce(RemoveNewlines(word), ':')[1]
              && ':' in SplitOnce(SplitOnce(RemoveNewlines(word), ':')[1], Bullet)[1]
    ensures r.Err? ==> r.error == IndexError(IndexMessage)
  {
    var first := SplitOnce(RemoveNewlines(word), ':');
    if |first| < 2 then Err(IndexError(IndexMessage))
    else
      var second := SplitOnce(first[1], Bullet);
      var position := Strip(second[0]);
      if |second| < 2 then Err(IndexError(IndexMessage))
      else
        var third := SplitOnce(second[1], ':');
        if |third| < 2 then Err(IndexError(IndexMessage))
        else Ok((position, Strip(third[1])))
  }

  /** A position line laid out as the page lays it out parses back into its
      stripped position and hand. */
  lemma {:induction false} PositionLineRoundTrip(head: string, position: string, shoots: string, hand: string)
    requires ':' !in head && Bullet !in position && ':' !in shoots
    requires '\n' !in head + [':'] + position + [Bullet] + shoots + [':'] + hand
    ensures ParsePositionLine(head + [':'] + position + [Bullet] + shoots + [':'] + hand) ==
            Ok((Strip(position), Strip(hand)))
  {
    var tail3 := shoots + [':'] + hand;
    var tail2 := position + [Bullet] + tail3;
    var line := head + [':'] + tail2;
    assert line == head + [':'] + position + [Bullet] + shoots + [':'] + hand;
    RemoveNoNewlines(line);
    SplitOnceJoin(head, ':', tail2);
    SplitOnceJoin(position, Bullet, tail3);
    SplitOnceJoin(shoots, ':', hand);
  }

  /** The college line `College: <name>`: the stripped name, or the
      `IndexError` a missing colon raises. */
  function ParseCollegeLine(word: string): (r: Result<string>)
    ensures r.Ok? <==> ':' in RemoveNewlines(word)
    ensures r.Err? ==> r.error == IndexError(IndexMessage)
  {
    var parts := SplitOnce(RemoveNewlines(word), ':');
    if |parts| < 2 then Err(IndexError(IndexMessage)) else Ok(Strip(parts[1]))
  }

  /** A college line laid out as the page lays it out parses back into its
      stripped name. */
  lemma {:induction false} CollegeLineRoundTrip(head: string, college: string)
    requires ':' !in head && '\n' !in head + [':'] + college
    ensures ParseCollegeLine(head + [':'] + college) == Ok(Strip(college))
  {
    RemoveNoNewlines(head + [':'] + college);
    SplitOnceJoin(head, ':', college);
  }

  // ---------------------------------------------------------------- the scan

  /** The locals of the paragraph loop: `nick_flag`, `nicknames`, the
      position and hand once assigned, and `college`. */
  datatype Scan = Scan(nickDone: bool, nicknames: string, posHand: Option<(string, string)>, college: string)

  const Start: Scan := Scan(false, NoneText, None, NoneText)

  /** The parsers the paragraph triggers do not fail on it. */
  predicate Parses(p: Paragraph) {
    && (HasPosition(p) ==> ParsePositionLine(Word(p)).Ok?)
    && (HasCollege(p) ==> ParseCollegeLine(Word(p)).Ok?)
  }

  /** Every paragraph's triggered parsers succeed. */
  predicate AllParse(ps: seq<Paragraph>) {
    forall i :: 0 <= i < |ps| ==> Parses(ps[i])
  }

  /** The paragraphs all parse exactly when all but the last do and the last does. */
  lemma AllParseLast(ps: seq<Paragraph>)
    requires |ps| > 0
    ensures AllParse(ps) <==> AllParse(ps[..|ps| - 1]) && Parses(ps[|ps| - 1])
  {
    assert forall i :: 0 <= i < |ps| - 1 ==> ps[..|ps| - 1][i] == ps[i];
  }

  /** One iteration of the paragraph loop: a nickname line is taken only
      while the nickname is still open, a position line closes it, and the
      position, hand and college lines overwrite what earlier ones gave. */
  function Step(st: Scan, p: Paragraph): (r: Result<Scan>)
    ensures r.Ok? <==> Parses(p)
    ensures r.Ok? ==> r.value.nickDone == (st.nickDone || NickLine(p) || HasPosition(p))
    ensures r.Ok? ==>
              r.value.nicknames == (if !st.nickDone && NickLine(p) then FirstNickname(Word(p)) else st.nicknames)
    ensures r.Ok? ==>
              r.value.posHand == (if HasPosition(p) then Some(ParsePositionLine(Word(p)).value) else st.posHand)
    ensures r.Ok? ==>
              r.value.college == (if HasCollege(p) then ParseCollegeLine(Word(p)).value else st.college)
  {
    var word := Word(p);
    var named := if !st.nickDone && NickCandidate(word) then st.(nickDone := true, nicknames := FirstNickname(word)) else st;
    var flagged := if HasPosition(p) then named.(nickDone := true) else named;
    var placed :- if HasPosition(p) then
                    var ph :- ParsePositionLine(word);
                    Ok(flagged.(posHand := Some(ph)))
                  else Ok(flagged);
    if HasCollege(p) then
      var c :- ParseCollegeLine(word);
      Ok(placed.(college := c))
    else Ok(placed)
  }

  /** The loop over the info box's paragraphs, in page order; it raises on
      the first paragraph whose triggered parser fails. */
  function ScanParagraphs(ps: seq<Paragraph>): (r: Result<Scan>)
    ensures r.Ok? <==> AllParse(ps)
  {
    if |ps| == 0 then Ok(Start)
    else
      AllParseLast(ps);
      var st :- ScanParagraphs(ps[..|ps| - 1]);
      Step(st, ps[|ps| - 1])
  }

  /** The loop over all but the last paragraph, then the last step. */
  lemma ScanLast(ps: seq<Paragraph>)
    requires |ps| > 0 && AllParse(ps)
    ensures AllParse(ps[..|ps| - 1])
    ensures ScanParagraphs(ps[..|ps| - 1]).Ok?
    ensures ScanParagraphs(ps) == Step(ScanParagraphs(ps[..|ps| - 1]).value, ps[|ps| - 1])
  {
    AllParseLast(ps);
  }

  /** The loop has stopped looking for a nickname exactly when some
      paragraph read as one or held the position. */
  lemma {:induction false} ScanNickDone(ps: seq<Paragraph>)
    requires AllParse(ps)
    ensures ScanParagraphs(ps).value.nickDone <==> FirstWhere(ps, ClosesNickname).Some?
  {
    if |ps| > 0 {
      var init, last := ps[..|ps| - 1], ps[|ps| - 1];
      ScanLast(ps);
      ScanNickDone(init);
      assert FirstWhere(ps, ClosesNickname).Some? <==> FirstWhere(init, ClosesNickname).Some? || ClosesNickname(last);
    }
  }

  /** The nickname the loop ends with is the one the reference meaning picks. */
  lemma {:induction false} ScanNickname(ps: seq<Paragraph>)
    requires AllParse(ps)
    ensures ScanParagraphs(ps).value.nicknames == NicknameOf(ps)
  {
    if |ps| > 0 {
      var init, last := ps[..|ps| - 1], ps[|ps| - 1];
      assert forall i :: 0 <= i < |ps| - 1 ==> init[i] == ps[i];
      ScanLast(ps);
      ScanNickname(init);
      ScanNickDone(init);
      var k := FirstWhere(init, ClosesNickname);
      assert FirstWhere(ps, ClosesNickname) ==
             if k.Some? then k else if ClosesNickname(last) then Some(|ps| - 1) else None;
    }
  }

  /** The position and hand the loop ends with come from the last paragraph
      that gives them. */
  lemma {:induction false} ScanPosition(ps: seq<Paragraph>)
    requires AllParse(ps)
    ensures ScanParagraphs(ps).value.posHand == PositionOf(ps)
  {
    if |ps| > 0 {
      var init, last := ps[..|ps| - 1], ps[|ps| - 1];
      assert forall i :: 0 <= i < |ps| - 1 ==> init[i] == ps[i];
      ScanLast(ps);
      ScanPosition(init);
      assert LastWhere(ps, HasPosition) == (if HasPosition(last) then Some(|ps| - 1) else LastWhere(init, HasPosition));
    }
  }

  /** The college the loop ends with comes from the last paragraph that gives one. */
  lemma {:induction false} ScanCollege(ps: seq<Paragraph>)
    requires AllParse(ps)
    ensures ScanParagraphs(ps).value.college == CollegeOf(ps)
  {
    if |ps| > 0 {
      var init, last := ps[..|ps| - 1], ps[|ps| - 1];
      assert forall i :: 0 <= i < |ps| - 1 ==> init[i] == ps[i];
      ScanLast(ps);
      ScanCollege(init);
      assert LastWhere(ps, HasCollege) == (if HasCollege(last) then Some(|ps| - 1) else LastWhere(init, HasCollege));
    }
  }

  // ---------------------------------------------------------------- reference meaning

  /** The index of the last paragraph with the property, if any. */
  function LastWhere(ps: seq<Paragraph>, P: Paragraph -> bool): (k: Option<nat>)
    ensures k.None? <==> forall i :: 0 <= i < |ps| ==> !P(ps[i])
    ensures k.Some? ==> k.value < |ps| && P(ps[k.value])
    ensures k.Some? ==> forall i :: k.value < i < |ps| ==> !P(ps[i])
  {
    if |ps| == 0 then None
    else if P(ps[|ps| - 1]) then Some(|ps| - 1)
    else
      var init := ps[..|ps| - 1];
      assert forall i :: 0 <= i < |ps| - 1 ==> init[i] == ps[i];
      LastWhere(init, P)
  }

  /** The index of the first paragraph with the property, if any. */
  function FirstWhere(ps: seq<Paragraph>, P: Paragraph -> bool): (k: Option<nat>)
    ensures k.None? <==> forall i :: 0 <= i < |ps| ==> !P(ps[i])
    ensures k.Some? ==> k.value < |ps| && P(ps[k.value])
    ensures k.Some? ==> forall i :: 0 <= i < k.value ==> !P(ps[i])
  {
    if |ps| == 0 then None
    else
      var init := ps[..|ps| - 1];
      assert forall i :: 0 <= i < |ps| - 1 ==> init[i] == ps[i];
      var k := FirstWhere(init, P);
      if k.Some? then k
      else if P(ps[|ps| - 1]) then Some(|ps| - 1)
      else None
  }

  /** A paragraph that ends the search for a nickname: one that reads as a
      nickname, or one labelled Position. */
  predicate ClosesNickname(p: Paragraph) {
    NickLine(p) || HasPosition(p)
  }

  /** The nickname the page gives, or "None": read from the first paragraph
      that ends the search, if that paragraph reads as a nickname. */
  function NicknameOf(ps: seq<Paragraph>): string {
    match FirstWhere(ps, ClosesNickname)
    case Some(k) => if NickLine(ps[k]) then FirstNickname(Word(ps[k])) else NoneText
    case None => NoneText
  }

  /** Position and hand as read from the last paragraph holding the position. */
  function PositionOf(ps: seq<Paragraph>): Option<(string, string)>
    requires AllParse(ps)
  {
    match LastWhere(ps, HasPosition)
    case None => None
    case Some(k) =>
      assert HasPosition(ps[k]) && Parses(ps[k]);
      Some(ParsePositionLine(Word(ps[k])).value)
  }

  /** The college read from the last paragraph holding it, or "None". */
  function CollegeOf(ps: seq<Paragraph>): string
    requires AllParse(ps)
  {
    match LastWhere(ps, HasCollege)
    case None => NoneText
    case Some(k) =>
      assert HasCollege(ps[k]) && Parses(ps[k]);
      ParseCollegeLine(Word(ps[k])).value
  }

  // ---------------------------------------------------------------- positions

  /** `position_dict`, in its insertion order. */
  const PositionNames: seq<(string, string)> := [
    ("Point Guard", "PG"), ("Shooting Guard", "SG"), ("Small Forward", "SF"),
    ("Power Forward", "PF"), ("Center", "C")]

  /** `[val for key, val in names if key in position]`. */
  function Abbreviations(position: string, names: seq<(string, string)>): (r: seq<string>)
    ensures |r| <= |names|
    ensures forall a :: a in r ==> exists j :: 0 <= j < |names| && names[j].1 == a && Contains(position, names[j].0)
    ensures forall j :: 0 <= j < |names| && Contains(position, names[j].0) ==> names[j].1 in r
  {
    if |names| == 0 then []
    else
      var rest := Abbreviations(position, names[1..]);
      assert forall j :: 1 <= j < |names| ==> names[1..][j - 1] == names[j];
      (if Contains(position, names[0].0) then [names[0].1] else []) + rest
  }

  /** The abbreviations of a split table are those of each part, in order:
      the list follows the table's order and holds each entry once. */
  lemma {:induction false} AbbreviationsAppend(position: string, a: seq<(string, string)>, b: seq<(string, string)>)
    ensures Abbreviations(position, a + b) == Abbreviations(position, a) + Abbreviations(position, b)
  {
    if |a| == 0 {
      assert a + b == b;
    } else {
      assert (a + b)[0] == a[0];
      assert (a + b)[1..] == a[1..] + b;
      AbbreviationsAppend(position, a[1..], b);
    }
  }

  /** A position's abbreviation is listed exactly when its full name occurs
      in the position text. */
  lemma {:induction false} AbbreviationListed(position: string, j: int)
    requires 0 <= j < |PositionNames|
    ensures PositionNames[j].1 in Abbreviations(position, PositionNames) <==> Contains(position, PositionNames[j].0)
  {
    var r := Abbreviations(position, PositionNames);
    if PositionNames[j].1 in r {
      var j' :| 0 <= j' < |PositionNames| && PositionNames[j'].1 == PositionNames[j].1 && Contains(position, PositionNames[j'].0);
      assert j' == j;
    }
  }

  /** `'/'.join(cleaned_pos)`. */
  function CleanPosition(position: string): (r: string)
    ensures SplitAll(r, '/') == (if Abbreviations(position, PositionNames) == [] then [""] else Abbreviations(position, PositionNames))
  {
    var abbrevs := Abbreviations(position, PositionNames);
    assert forall a :: a in abbrevs ==> '/' !in a;
    if abbrevs == [] then "" else
      SplitJoin(abbrevs, '/');
      Join(abbrevs, '/')
  }

  // ---------------------------------------------------------------- player_info

  /** `player_info`: the page's fields, or the exception the page makes the
      parser raise: `AttributeError` when the height or the info block is
      missing, `IndexError` when a position or college line lacks a
      separator, `NameError` when no paragraph gives the position (the list
      comprehension of line 209 reads `position` as a free variable, and on
      Python 3.12 and later the inlined comprehension raises its subclass
      `UnboundLocalError` instead). */
  function ReadInfo(page: Page): (r: Result<Info>)
    ensures r.Ok? <==>
              && page.height.Some? && page.info.Some?
              && AllParse(page.info.value)
              && (exists i :: 0 <= i < |page.info.value| && HasPosition(page.info.value[i]))
    ensures r.Err? && page.height.Some? && page.info.Some? &&
            AllParse(page.info.value) ==>
              r.error == NameError("position")
    ensures r.Ok? ==> r.value.height == Strip(page.height.value)
    ensures r.Ok? ==>
              var ps := page.info.value;
              var k := LastWhere(ps, HasPosition).value;
              var ph := ParsePositionLine(Word(ps[k])).value;
              && r.value.position == CleanPosition(ph.0)
              && r.value.hand == ph.1
              && r.value.nicknames == NicknameOf(ps)
              && r.value.college == CollegeOf(ps)
  {
    if page.height.None? then Err(AttributeError("text"))
    else if page.info.None? then Err(AttributeError("find_all"))
    else
      var st :- ScanParagraphs(page.info.value);
      ScanNickname(page.info.value);
      ScanPosition(page.info.value);
      ScanCollege(page.info.value);
      match st.posHand
      case None => Err(NameError("position"))
      case Some(ph) => Ok(Info(st.nicknames, CleanPosition(ph.0), Strip(page.height.value), ph.1, st.college))
  }

  // ---------------------------------------------------------------- get_player

  /** `name.strip().lower()`: the database key of a typed name. */
  function NormaliseName(name: string): (r: string)
    ensures forall k :: 0 <= k < |r| ==> !IsUpper(r[k])
    ensures |r| > 0 ==> !IsSpace(r[0]) && !IsSpace(r[|r| - 1])
    ensures IsStripOf(r, Lower(name))
  {
    var t := Strip(name);
    StripEnds(name);
    StripLower(name);
    Lower(t)
  }

  /** Normalising a key leaves it as it is. */
  lemma {:induction false} NormaliseIdempotent(name: string)
    ensures NormaliseName(NormaliseName(name)) == NormaliseName(name)
  {
    var t := Strip(name);
    StripLower(t);
    StripIdempotent(name);
    LowerIdempotent(t);
  }

  /** The key of a name ignores surrounding whitespace and ASCII case. */
  lemma {:induction false} NormaliseIgnoresPaddingAndCase(pre: string, name: string, post: string)
    requires AllSpace(pre) && AllSpace(post)
    ensures NormaliseName(pre + name + post) == NormaliseName(name)
    ensures NormaliseName(Lower(name)) == NormaliseName(name)
  {
    StripPadding(pre, name, post);
    StripLower(name);
    LowerIdempotent(Strip(name));
  }

  /** `player_dict[p.name]`: the player's identifier, or `None` when the
      database does not hold the name. */
  function FindPlayer(db: map<string, string>, name: string): (r: Option<string>)
    ensures r.Some? <==> NormaliseName(name) in db
    ensures r.Some? ==> r.value == db[NormaliseName(name)]
  {
    var key := NormaliseName(name);
    if key in db then Some(db[key]) else None
  }

  // ---------------------------------------------------------------- page address

  const PlayersUrl: string := "https://www.basketball-reference.com/players/"
  const PageSuffix: string := ".html"

  /** `url + ext[0] + '/' + ext + end`, or the `IndexError` of `ext[0]` on an
      empty identifier. */
  function PlayerUrl(ext: string): (r: Result<string>)
    ensures r.Err? <==> ext == ""
    ensures r.Err? ==> r.error == IndexError("string index out of range")
    ensures r.Ok? ==> UrlExt(r.value) == Some(ext)
  {
    if ext == "" then Err(IndexError("string index out of range"))
    else
      var u := PlayersUrl + [ext[0]] + "/" + ext + PageSuffix;
      assert u[..|PlayersUrl|] == PlayersUrl;
      assert u[|PlayersUrl| + 2..|u| - |PageSuffix|] == ext;
      assert u[|u| - |PageSuffix|..] == PageSuffix;
      Ok(u)
  }

  /** The identifier a player page's address names, if it has that shape. */
  function UrlExt(u: string): Option<string> {
    var n := |PlayersUrl|;
    if |u| >= n + 3 + |PageSuffix| && u[..n] == PlayersUrl && u[n + 1] == '/' && u[|u| - |PageSuffix|..] == PageSuffix then
      var ext := u[n + 2..|u| - |PageSuffix|];
      if ext[0] == u[n] then Some(ext) else None
    else None
  }

  /** Every address of player-page shape is the address of exactly the
      identifier it names. */
  lemma {:induction false} UrlExtInverse(u: string)
    requires UrlExt(u).Some?
    ensures PlayerUrl(UrlExt(u).value) == Ok(u)
  {
    var n := |PlayersUrl|;
    var ext := UrlExt(u).value;
    assert u == u[..n] + [u[n]] + [u[n + 1]] + u[n + 2..|u| - |PageSuffix|] + u[|u| - |PageSuffix|..];
  }

  /** `get_player` then the address of `player_stats`: `None` when the
      name is not in the database (the caller stops there), otherwise the
      address of the player's page. */
  function LocatePlayer(db: map<string, string>, name: string): (r: Result<Option<string>>)
    ensures r.Ok? && r.value.None? <==> NormaliseName(name) !in db
    ensures r.Err? <==> NormaliseName(name) in db && db[NormaliseName(name)] == ""
    ensures r.Ok? && r.value.Some? ==> UrlExt(r.value.value) == Some(db[NormaliseName(name)])
  {
    match FindPlayer(db, name)
    case None => Ok(None)
    case Some(ext) =>
      var u :- PlayerUrl(ext);
      Ok(Some(u))
  }
}

=== FILE: pipeline.dfy ===
/** `player_stats` after the tables are fetched: prepare them with
    `player_tables`, then summarise them with `determine_peak_season`. */
module Pipeline {
  import opened Base
  import opened Scoring
  import opened Selection
  import opened Tables

  /** The prepared tables are ones `determine_peak_season` can summarise. */
  predicate Summarisable(s: SeasonTables) {
    Peakable(s.regular) && (IsEmpty(s.playoff) || Peakable(s.playoff))
  }

  /** The peak data of one player from their fetched tables.  Without
      playoffs there is no playoff summary; otherwise there is one exactly
      when the prepared playoff table is not empty, and it summarises that table.
      No peak is ever taken from a row the season filter removes, such as
      `Career`. */
  function PlayerStats(t: Fetched): (r: Result<PeakData>)
    requires Fetchable(t)
    requires PlayerTables(t).Ok? ==> Summarisable(PlayerTables(t).value)
    ensures r.Ok? <==> PlayerTables(t).Ok?
    ensures r.Ok? ==> SummaryOf(r.value.regular, PlayerTables(t).value.regular)
    ensures r.Ok? && !MadePlayoffs(t) ==> r.value.playoff.None?
    ensures r.Ok? ==> (r.value.playoff.None? <==> IsEmpty(PlayerTables(t).value.playoff))
    ensures r.Ok? && r.value.playoff.Some? ==> SummaryOf(r.value.playoff.value, PlayerTables(t).value.playoff)
    ensures r.Ok? ==> r.value == DeterminePeakSeason(PlayerTables(t).value.regular, PlayerTables(t).value.playoff)
    ensures r.Ok? ==> PeakSeasonHasDash(r.value.regular)
    ensures r.Ok? && r.value.playoff.Some? ==> PeakSeasonHasDash(r.value.playoff.value)
  {
    var tables :- PlayerTables(t);
    var d := DeterminePeakSeason(tables.regular, tables.playoff);
    assert d.playoff.Some? ==> MadePlayoffs(t);
    PeaksAreSeasonRows(tables, d);
    Ok(d)
  }

  /** Both peaks of summaries of season-filtered tables are season rows. */
  lemma PeaksAreSeasonRows(tables: SeasonTables, d: PeakData)
    requires Summarisable(tables)
    requires forall o :: o in tables.regular.rows ==> HasSeasonDash(o)
    requires SummaryOf(d.regular, tables.regular)
    requires d.playoff.Some? ==> Peakable(tables.playoff) && SummaryOf(d.playoff.value, tables.playoff)
    requires d.playoff.Some? ==> forall o :: o in tables.playoff.rows ==> HasSeasonDash(o)
    ensures PeakSeasonHasDash(d.regular)
    ensures d.playoff.Some? ==> PeakSeasonHasDash(d.playoff.value)
  {
    PeakIsSeasonRow(tables.regular, d.regular);
    if d.playoff.Some? {
      PeakIsSeasonRow(tables.playoff, d.playoff.value);
    }
  }

  /** The peak's season label is a 'YEAR-YEAR' style label, never `Career`. */
  predicate PeakSeasonHasDash(s: Summary) {
    |s.peak| > 0 && s.peak[0].Text? && '-' in s.peak[0].s && s.peak[0] != Text(CareerLabel)
  }

  /** A summary of a season-filtered table peaks on a season-filtered row. */
  lemma PeakIsSeasonRow(f: Frame, s: Summary)
    requires Peakable(f) && SummaryOf(s, f)
    requires forall o :: o in f.rows ==> HasSeasonDash(o)
    ensures PeakSeasonHasDash(s)
  {
    var k :| 0 <= k < |f.rows| && PeakRow(s.peak, f, k);
    assert f.rows[k] in f.rows;
    DashIsNotCareer(f.rows[k][SeasonCol]);
  }
}

=== FILE: scoring.dfy ===
/** `peak_calculation`: the composite score of every season of one table,
    2.5 * PER / max(PER) + 2.5 * WS / max(WS), with both maxima taken over
    that same table.  NaN cells (a season the advanced table lacks) are skipped
    by the maxima and give a NaN score, as pandas does. */
module Scoring {
  import opened Base

  /** The fixed weight of each of the two normalised metrics. */
  const Scalar: real := 2.5

  const PerCol: string := "PER"
  const WsCol: string := "WS"
  const SumCol: string := "sum"

  /** `float(cell)` for a cell that is a number or NaN. */
  function AsReal(c: Cell): Option<real> {
    match c
    case Num(x) => Some(x)
    case _ => None
  }

  /** A cell `astype(float)` accepts: the model's stats are already parsed. */
  predicate NumericCell(c: Cell) {
    c.Num? || c.Missing?
  }

  /** One column of a frame as floats, NaN as `None`. */
  function Column(f: Frame, col: string): (r: seq<Option<real>>)
    requires WellFormed(f) && col in f.cols
    ensures |r| == |f.rows|
    ensures forall i :: 0 <= i < |r| ==> r[i] == AsReal(f.rows[i][col])
  {
    seq(|f.rows|, i requires 0 <= i < |f.rows| => AsReal(f.rows[i][col]))
  }

  /** m is attained in s and no present value of s exceeds it. */
  predicate IsMaxOf(s: seq<Option<real>>, m: real) {
    && (exists i :: 0 <= i < |s| && s[i] == Some(m))
    && (forall i :: 0 <= i < |s| && s[i].Some? ==> s[i].value <= m)
  }

  /** A series has at most one maximum. */
  lemma MaxUnique(s: seq<Option<real>>, a: real, b: real)
    requires IsMaxOf(s, a) && IsMaxOf(s, b)
    ensures a == b
  {
    var i :| 0 <= i < |s| && s[i] == Some(a);
    var j :| 0 <= j < |s| && s[j] == Some(b);
  }

  /** pandas `Series.max()`: the largest non-NaN value, NaN when there is none. */
  function MaxPresent(s: seq<Option<real>>): (m: Option<real>)
    ensures m.None? <==> forall i :: 0 <= i < |s| ==> s[i].None?
    ensures m.Some? ==> IsMaxOf(s, m.value)
  {
    if |s| == 0 then None
    else
      var rest := MaxPresent(s[1..]);
      assert forall i :: 1 <= i < |s| ==> s[i] == s[1..][i - 1];
      if s[0].None? then rest
      else if rest.None? || rest.value < s[0].value then s[0]
      else rest
  }

  /** The column exists, holds only numbers or NaN, and its maximum is positive. */
  predicate PositiveColumn(f: Frame, col: string)
    requires WellFormed(f)
  {
    && col in f.cols
    && (forall i :: 0 <= i < |f.rows| ==> NumericCell(f.rows[i][col]))
    && MaxPresent(Column(f, col)).Some?
    && MaxPresent(Column(f, col)).value > 0.0
  }

  /** What `peak_calculation` needs of its table without producing inf or NaN maxima. */
  predicate Scorable(f: Frame) {
    WellFormed(f) && PositiveColumn(f, PerCol) && PositiveColumn(f, WsCol)
  }

  /** The table's own PER maximum, the denominator of the PER term. */
  function MaxPer(f: Frame): (m: real)
    requires Scorable(f)
    ensures m > 0.0 && IsMaxOf(Column(f, PerCol), m)
  {
    MaxPresent(Column(f, PerCol)).value
  }

  /** The table's own WS maximum, the denominator of the WS term. */
  function MaxWs(f: Frame): (m: real)
    requires Scorable(f)
    ensures m > 0.0 && IsMaxOf(Column(f, WsCol), m)
  {
    MaxPresent(Column(f, WsCol)).value
  }

  /** One weighted, normalised term of the composite score. */
  function Normalised(x: real, m: real): real
    requires m > 0.0
  {
    Scalar * x / m
  }

  /** The composite score of one season; NaN if either metric is NaN. */
  function Composite(per: Option<real>, ws: Option<real>, maxPer: real, maxWs: real): Option<real>
    requires maxPer > 0.0 && maxWs > 0.0
  {
    if per.Some? && ws.Some? then Some(Normalised(per.value, maxPer) + Normalised(ws.value, maxWs))
    else None
  }

  /** The score series `peak_calculation` returns, index-aligned with the rows. */
  function Scores(f: Frame): (r: seq<Option<real>>)
    requires Scorable(f)
    ensures |r| == |f.rows|
    ensures forall i :: 0 <= i < |r| ==>
              r[i] == Composite(AsReal(f.rows[i][PerCol]), AsReal(f.rows[i][WsCol]), MaxPer(f), MaxWs(f))
  {
    var per := Column(f, PerCol);
    var ws := Column(f, WsCol);
    seq(|f.rows|, i requires 0 <= i < |f.rows| => Composite(per[i], ws[i], MaxPer(f), MaxWs(f)))
  }

  /** A score as it is stored in the frame: a number, or NaN. */
  function ScoreCell(x: Option<real>): Cell {
    if x.Some? then Num(x.value) else Missing
  }

  /** `df['sum'] = peak_calculation(df)`: the frame with the score column added
      and every other column of every row left as it was. */
  function AddScoreColumn(f: Frame): (g: Frame)
    requires Scorable(f)
    ensures WellFormed(g)
    ensures g.cols == f.cols + {SumCol}
    ensures |g.rows| == |f.rows|
    ensures forall i :: 0 <= i < |g.rows| ==> AsReal(g.rows[i][SumCol]) == Scores(f)[i]
    ensures forall i, c :: 0 <= i < |g.rows| && c in f.cols && c != SumCol ==>
              g.rows[i][c] == f.rows[i][c]
  {
    var sc := Scores(f);
    Frame(f.cols + {SumCol},
          seq(|f.rows|, i requires 0 <= i < |f.rows| => f.rows[i][SumCol := ScoreCell(sc[i])]))
  }

  /** Every present PER and WS value of the table is non-negative. */
  predicate NonNegativeStats(f: Frame)
    requires Scorable(f)
  {
    forall i :: 0 <= i < |f.rows| ==>
      && (f.rows[i][PerCol].Num? ==> f.rows[i][PerCol].x >= 0.0)
      && (f.rows[i][WsCol].Num? ==> f.rows[i][WsCol].x >= 0.0)
  }

  lemma NormalisedAtMostScalar(x: real, m: real)
    requires x <= m && m > 0.0
    ensures Normalised(x, m) <= Scalar
  {
  }

  lemma NormalisedNonNegative(x: real, m: real)
    requires 0.0 <= x && m > 0.0
    ensures 0.0 <= Normalised(x, m)
  {
  }

  lemma NormalisedMonotone(a: real, b: real, m: real)
    requires a <= b && m > 0.0
    ensures Normalised(a, m) <= Normalised(b, m)
  {
  }

  lemma NormalisedAtMaximum(m: real)
    requires m > 0.0
    ensures Normalised(m, m) == Scalar
  {
  }

  /** No season scores above 5: each normalised term is at most 2.5. */
  lemma {:induction false} ScoreAtMostFive(f: Frame, i: int)
    requires Scorable(f) && 0 <= i < |f.rows|
    requires Scores(f)[i].Some?
    ensures Scores(f)[i].value <= 5.0
  {
    var per := Column(f, PerCol);
    var ws := Column(f, WsCol);
    NormalisedAtMostScalar(per[i].value, MaxPer(f));
    NormalisedAtMostScalar(ws[i].value, MaxWs(f));
  }

  /** With non-negative stats every score lies in [0, 5]. */
  lemma {:induction false} ScoreBounds(f: Frame)
    requires Scorable(f) && NonNegativeStats(f)
    ensures forall i :: 0 <= i < |f.rows| && Scores(f)[i].Some? ==>
              0.0 <= Scores(f)[i].value <= 5.0
  {
    var per := Column(f, PerCol);
    var ws := Column(f, WsCol);
    forall i | 0 <= i < |f.rows| && Scores(f)[i].Some?
      ensures 0.0 <= Scores(f)[i].value <= 5.0
    {
      ScoreAtMostFive(f, i);
      NormalisedNonNegative(per[i].value, MaxPer(f));
      NormalisedNonNegative(ws[i].value, MaxWs(f));
    }
  }

  /** A season holding both the PER maximum and the WS maximum scores exactly 5. */
  lemma {:induction false} DoubleMaximumScoresFive(f: Frame, i: int)
    requires Scorable(f) && 0 <= i < |f.rows|
    requires f.rows[i][PerCol] == Num(MaxPer(f)) && f.rows[i][WsCol] == Num(MaxWs(f))
    ensures Scores(f)[i] == Some(5.0)
  {
    var mp, mw := MaxPer(f), MaxWs(f);
    NormalisedAtMaximum(mp);
    NormalisedAtMaximum(mw);
    assert AsReal(f.rows[i][PerCol]) == Some(mp) && AsReal(f.rows[i][WsCol]) == Some(mw);
    assert Composite(Some(mp), Some(mw), mp, mw) == Some(5.0);
  }

  /** A season at least as good as another on both metrics scores at least as much. */
  lemma {:induction false} ScoreMonotone(f: Frame, i: int, j: int)
    requires Scorable(f) && 0 <= i < |f.rows| && 0 <= j < |f.rows|
    requires f.rows[i][PerCol].Num? && f.rows[i][WsCol].Num?
    requires f.rows[j][PerCol].Num? && f.rows[j][WsCol].Num?
    requires f.rows[i][PerCol].x >= f.rows[j][PerCol].x
    requires f.rows[i][WsCol].x >= f.rows[j][WsCol].x
    ensures Scores(f)[i].Some? && Scores(f)[j].Some?
    ensures Scores(f)[i].value >= Scores(f)[j].value
  {
    NormalisedMonotone(f.rows[j][PerCol].x, f.rows[i][PerCol].x, MaxPer(f));
    NormalisedMonotone(f.rows[j][WsCol].x, f.rows[i][WsCol].x, MaxWs(f));
  }
}

=== FILE: selection.dfy ===
/** `determine_peak_season`: score each table, pick the first season with
    the highest score (pandas `idxmax`), project the eight peak fields of that
    season, and keep the whole career as parallel series for plotting.  The
    playoff summary exists exactly when the playoff table is not empty. */
module Selection {
  import opened Base
  import opened Scoring

  const TeamCol: string := "Tm"
  const FgPctCol: string := "FG%"
  const PtsCol: string := "PTS"
  const AstCol: string := "AST"
  const TrbCol: string := "TRB"

  /** The table has every column `peak_list` reads. */
  predicate HasPeakColumns(cols: set<string>) {
    && SeasonCol in cols && TeamCol in cols && PerCol in cols && WsCol in cols
    && FgPctCol in cols && PtsCol in cols && AstCol in cols && TrbCol in cols
  }

  /** The peak season and the career trajectory of one table. */
  datatype Summary = Summary(
    peak: seq<Cell>,             // `peak_list`
    seasons: seq<Cell>,          // season labels
    scores: seq<Option<real>>,   // `seas_sum`
    ppg: seq<Option<real>>,
    apg: seq<Option<real>>,
    rpg: seq<Option<real>>)

  /** `peak_data`: the regular-season summary and, if any, the playoff one. */
  datatype PeakData = PeakData(regular: Summary, playoff: Option<Summary>)

  /** k is where pandas `idxmax` lands: a present maximum with no present
      value before it as large (NaN entries are skipped). */
  predicate IsFirstArgMax(s: seq<Option<real>>, k: int) {
    && 0 <= k < |s|
    && s[k].Some?
    && (forall j :: 0 <= j < |s| && s[j].Some? ==> s[j].value <= s[k].value)
    && (forall j :: 0 <= j < k && s[j].Some? ==> s[j].value < s[k].value)
  }

  /** A series has at most one first maximum: ties go to the earliest. */
  lemma FirstArgMaxUnique(s: seq<Option<real>>, a: int, b: int)
    requires IsFirstArgMax(s, a) && IsFirstArgMax(s, b)
    ensures a == b
  {
  }

  /** pandas `Series.idxmax()` (skipping NaN), positionally; `None` when
      every entry is NaN. */
  function IdxMax(s: seq<Option<real>>): (k: Option<nat>)
    ensures k.None? <==> forall i :: 0 <= i < |s| ==> s[i].None?
    ensures k.Some? ==> IsFirstArgMax(s, k.value)
  {
    if |s| == 0 then None
    else
      var init := s[..|s| - 1];
      assert forall j :: 0 <= j < |s| - 1 ==> init[j] == s[j];
      var p := IdxMax(init);
      var last := s[|s| - 1];
      if last.None? then p
      else if p.None? || s[p.value].value < last.value then Some(|s| - 1)
      else p
  }

  /** Some season has both metrics, so the score series is not all NaN. */
  predicate HasScoredSeason(f: Frame)
    requires WellFormed(f) && PerCol in f.cols && WsCol in f.cols
  {
    exists i :: 0 <= i < |f.rows| && f.rows[i][PerCol].Num? && f.rows[i][WsCol].Num?
  }

  /** What `determine_peak_season` needs of a table it summarises: positive
      maxima, the eight peak columns, per-game stats `float` accepts, and a
      season `idxmax` can land on. */
  predicate Peakable(f: Frame) {
    && Scorable(f)
    && HasPeakColumns(f.cols)
    && (forall i :: 0 <= i < |f.rows| ==>
          NumericCell(f.rows[i][PtsCol]) && NumericCell(f.rows[i][AstCol]) && NumericCell(f.rows[i][TrbCol]))
    && HasScoredSeason(f)
  }

  /** The eight `peak_list` fields of one row, in order. */
  function PeakFields(row: Row): (r: seq<Cell>)
    requires HasPeakColumns(row.Keys)
    ensures |r| == 8
  {
    [row[SeasonCol], row[TeamCol], row[PerCol], row[WsCol], row[FgPctCol], row[PtsCol], row[AstCol], row[TrbCol]]
  }

  /** Two rows agree on every column `peak_list` reads. */
  predicate AgreeOnPeakColumns(a: Row, b: Row)
    requires HasPeakColumns(a.Keys) && HasPeakColumns(b.Keys)
  {
    && a[SeasonCol] == b[SeasonCol] && a[TeamCol] == b[TeamCol]
    && a[PerCol] == b[PerCol] && a[WsCol] == b[WsCol]
    && a[FgPctCol] == b[FgPctCol] && a[PtsCol] == b[PtsCol]
    && a[AstCol] == b[AstCol] && a[TrbCol] == b[TrbCol]
  }

  /** The peak list of a row is fixed by, and fixes, the row's eight peak
      columns: no other column enters it and none of the eight is lost. */
  lemma PeakFieldsExactly(a: Row, b: Row)
    requires HasPeakColumns(a.Keys) && HasPeakColumns(b.Keys)
    ensures PeakFields(a) == PeakFields(b) <==> AgreeOnPeakColumns(a, b)
  {
  }

  /** Every series of the summary is index-aligned with f's rows: season
      labels, composite scores and the per-game numbers. */
  predicate SeriesOf(s: Summary, f: Frame)
    requires Peakable(f)
  {
    && |s.seasons| == |f.rows| && |s.ppg| == |f.rows| && |s.apg| == |f.rows| && |s.rpg| == |f.rows|
    && s.scores == Scores(f)
    && (forall i :: 0 <= i < |f.rows| ==> s.seasons[i] == f.rows[i][SeasonCol])
    && (forall i :: 0 <= i < |f.rows| ==> s.ppg[i] == AsReal(f.rows[i][PtsCol]))
    && (forall i :: 0 <= i < |f.rows| ==> s.apg[i] == AsReal(f.rows[i][AstCol]))
    && (forall i :: 0 <= i < |f.rows| ==> s.rpg[i] == AsReal(f.rows[i][TrbCol]))
  }

  /** peak holds the eight peak fields of row k, and k is the first
      highest-scoring row of f. */
  predicate PeakRow(peak: seq<Cell>, f: Frame, k: int)
    requires Peakable(f)
  {
    && 0 <= k < |f.rows|
    && IsFirstArgMax(Scores(f), k)
    && peak == PeakFields(f.rows[k])
  }

  /** The reference meaning of a summary of table f: its series are f's, and
      its peak is f's first highest-scoring season, field by field. */
  predicate SummaryOf(s: Summary, f: Frame)
    requires Peakable(f)
  {
    SeriesOf(s, f) && exists k :: 0 <= k < |f.rows| && PeakRow(s.peak, f, k)
  }

  /** The `sum` column read back from the scored frame is the score series. */
  lemma {:induction false} SumColumnIsScores(f: Frame)
    requires Scorable(f)
    ensures SumCol in AddScoreColumn(f).cols
    ensures Column(AddScoreColumn(f), SumCol) == Scores(f)
  {
    var g := AddScoreColumn(f);
    var col := Column(g, SumCol);
    forall i | 0 <= i < |f.rows| ensures col[i] == Scores(f)[i] {
      assert AsReal(g.rows[i][SumCol]) == Scores(f)[i];
    }
  }

  /** A season with both metrics present has a score. */
  lemma ScoredSeasonHasScore(f: Frame)
    requires Peakable(f)
    ensures exists i :: 0 <= i < |f.rows| && Scores(f)[i].Some?
  {
    var i :| 0 <= i < |f.rows| && f.rows[i][PerCol].Num? && f.rows[i][WsCol].Num?;
    assert Scores(f)[i].Some?;
  }

  /** The index `idxmax` picks on the scored table. */
  function PeakIndex(f: Frame): (k: nat)
    requires Peakable(f)
    ensures IsFirstArgMax(Scores(f), k)
  {
    var g := AddScoreColumn(f);
    SumColumnIsScores(f);
    ScoredSeasonHasScore(f);
    IdxMax(Column(g, SumCol)).value
  }

  /** The season labels of a frame, in row order. */
  function SeasonSeries(f: Frame): (r: seq<Cell>)
    requires WellFormed(f) && SeasonCol in f.cols
    ensures |r| == |f.rows|
    ensures forall i :: 0 <= i < |f.rows| ==> r[i] == f.rows[i][SeasonCol]
  {
    seq(|f.rows|, i requires 0 <= i < |f.rows| => f.rows[i][SeasonCol])
  }

  /** Adding the score column leaves every other column's series as it was. */
  lemma {:induction false} ScoredColumnsAgree(f: Frame)
    requires Peakable(f)
    ensures SeasonSeries(AddScoreColumn(f)) == SeasonSeries(f)
    ensures Column(AddScoreColumn(f), PtsCol) == Column(f, PtsCol)
    ensures Column(AddScoreColumn(f), AstCol) == Column(f, AstCol)
    ensures Column(AddScoreColumn(f), TrbCol) == Column(f, TrbCol)
  {
    ScoredColumnAgrees(f, PtsCol);
    ScoredColumnAgrees(f, AstCol);
    ScoredColumnAgrees(f, TrbCol);
  }

  /** Adding the score column leaves one other column's series as it was. */
  lemma ScoredColumnAgrees(f: Frame, c: string)
    requires Peakable(f) && c in f.cols && c != SumCol
    ensures Column(AddScoreColumn(f), c) == Column(f, c)
  {
  }

  /** The peak fields read from the scored frame are those of the table. */
  lemma {:induction false} ScoredPeakFields(f: Frame, k: int)
    requires Peakable(f) && 0 <= k < |f.rows|
    ensures PeakFields(AddScoreColumn(f).rows[k]) == PeakFields(f.rows[k])
  {
    var g := AddScoreColumn(f);
    assert g.rows[k].Keys == f.cols + {SumCol};
  }

  /** The regular-season (or playoff) half of `determine_peak_season`. */
  function Summarize(f: Frame): (s: Summary)
    requires Peakable(f)
    ensures SummaryOf(s, f)
  {
    var g := AddScoreColumn(f);
    SumColumnIsScores(f);
    ScoredColumnsAgree(f);
    var k := PeakIndex(f);
    ScoredPeakFields(f, k);
    var s := Summary(
      PeakFields(g.rows[k]),
      SeasonSeries(g),
      Column(g, SumCol),
      Column(g, PtsCol),
      Column(g, AstCol),
      Column(g, TrbCol));
    SeriesFromColumns(f, s);
    assert PeakRow(s.peak, f, k);
    s
  }

  /** A summary whose series are the table's columns meets the series half
      of the reference meaning. */
  lemma SeriesFromColumns(f: Frame, s: Summary)
    requires Peakable(f)
    requires s.seasons == SeasonSeries(f) && s.scores == Scores(f)
    requires s.ppg == Column(f, PtsCol) && s.apg == Column(f, AstCol) && s.rpg == Column(f, TrbCol)
    ensures SeriesOf(s, f)
  {
  }

  /** `determine_peak_season`: both summaries meet their reference meaning,
      each computed from its own table alone, and the playoff summary is
      absent exactly when the playoff table is empty. */
  function DeterminePeakSeason(reg: Frame, plof: Frame): (d: PeakData)
    requires Peakable(reg)
    requires IsEmpty(plof) || Peakable(plof)
    ensures SummaryOf(d.regular, reg)
    ensures d.playoff.None? <==> IsEmpty(plof)
    ensures d.playoff.Some? ==> Peakable(plof) && SummaryOf(d.playoff.value, plof)
  {
    var regular := Summarize(reg);
    if IsEmpty(plof) then PeakData(regular, None)
    else PeakData(regular, Some(Summarize(plof)))
  }

  /** A table has exactly one summary: the reference meaning fixes every
      field, the peak included. */
  lemma {:induction false} SummaryUnique(f: Frame, s1: Summary, s2: Summary)
    requires Peakable(f) && SummaryOf(s1, f) && SummaryOf(s2, f)
    ensures s1 == s2
  {
    PeakUnique(f, s1, s2);
    SeriesUnique(f, s1, s2);
  }

  /** Both summaries read their peak from the same, first highest-scoring row. */
  lemma {:induction false} PeakUnique(f: Frame, s1: Summary, s2: Summary)
    requires Peakable(f) && SummaryOf(s1, f) && SummaryOf(s2, f)
    ensures s1.peak == s2.peak
  {
    var k1 :| 0 <= k1 < |f.rows| && PeakRow(s1.peak, f, k1);
    var k2 :| 0 <= k2 < |f.rows| && PeakRow(s2.peak, f, k2);
    FirstArgMaxUnique(Scores(f), k1, k2);
  }

  /** Both summaries hold the same aligned career series. */
  lemma SeriesUnique(f: Frame, s1: Summary, s2: Summary)
    requires Peakable(f) && SeriesOf(s1, f) && SeriesOf(s2, f)
    ensures s1.seasons == s2.seasons && s1.scores == s2.scores
    ensures s1.ppg == s2.ppg && s1.apg == s2.apg && s1.rpg == s2.rpg
  {
    assert forall i :: 0 <= i < |f.rows| ==> s1.seasons[i] == s2.seasons[i];
    assert forall i :: 0 <= i < |f.rows| ==> s1.ppg[i] == s2.ppg[i];
    assert forall i :: 0 <= i < |f.rows| ==> s1.apg[i] == s2.apg[i];
    assert forall i :: 0 <= i < |f.rows| ==> s1.rpg[i] == s2.rpg[i];
  }

  /** The playoff summary does not depend on the regular-season table. */
  lemma PlayoffSummaryIndependent(reg1: Frame, reg2: Frame, plof: Frame)
    requires Peakable(reg1) && Peakable(reg2)
    requires IsEmpty(plof) || Peakable(plof)
    ensures DeterminePeakSeason(reg1, plof).playoff == DeterminePeakSeason(reg2, plof).playoff
  {
    var d1, d2 := DeterminePeakSeason(reg1, plof), DeterminePeakSeason(reg2, plof);
    if !IsEmpty(plof) {
      SummaryUnique(plof, d1.playoff.value, d2.playoff.value);
    }
  }

  /** If an entry reaches an upper bound of the series, the first maximum
      reaches it too and comes no later. */
  lemma FirstArgMaxReachesBound(s: seq<Option<real>>, k: int, i: int, b: real)
    requires IsFirstArgMax(s, k) && 0 <= i < |s| && s[i] == Some(b)
    requires s[k].value <= b
    ensures s[k] == Some(b) && k <= i
  {
  }

  /** If one season holds both the PER and the WS maximum, the peak scores
      exactly 5 and is that season or an earlier season that also scores 5. */
  lemma {:induction false} DoubleMaximumIsPeak(f: Frame, i: int)
    requires Peakable(f) && 0 <= i < |f.rows|
    requires f.rows[i][PerCol] == Num(MaxPer(f)) && f.rows[i][WsCol] == Num(MaxWs(f))
    ensures Scores(f)[PeakIndex(f)] == Some(5.0)
    ensures PeakIndex(f) <= i
  {
    var k := PeakIndex(f);
    var s := Scores(f);
    DoubleMaximumScoresFive(f, i);
    ScoreAtMostFive(f, k);
    FirstArgMaxReachesBound(s, k, i, 5.0);
  }
}

=== FILE: tables.dfy ===
/** The pure part of `player_tables`: drop the identity columns from the
    per-game tables, full outer join each with its advanced table on `Season`,
    and keep only the rows whose season label contains '-' (which removes the
    `Career` row); the no-playoffs branch also drops rows holding any NaN. */
module Tables {
  import opened Base

  /** The identity columns dropped from the per-game tables before the join. */
  const DropList: set<string> := {"Age", "Tm", "Lg", "Pos", "G", "MP"}

  /** The label of the summary row that the season filter removes. */
  const CareerLabel: string := "Career"

  /** A label with a dash is never the career label. */
  lemma DashIsNotCareer(c: Cell)
    requires c.Text? && '-' in c.s
    ensures c != Text(CareerLabel)
  {
    assert '-' !in CareerLabel;
  }

  // ---------------------------------------------------------------- drop

  /** `df.drop(labels, axis=1)`: removes the columns, or raises `KeyError`
      naming the labels the frame does not have. */
  function DropColumns(f: Frame, labels: set<string>): (r: Result<Frame>)
    ensures r.Ok? <==> labels <= f.cols
    ensures r.Err? ==> r.error == KeyError(labels - f.cols)
    ensures r.Ok? ==> r.value.cols == f.cols - labels && |r.value.rows| == |f.rows|
    ensures r.Ok? && WellFormed(f) ==> WellFormed(r.value)
    ensures r.Ok? ==> forall i, c :: 0 <= i < |f.rows| && c in r.value.rows[i] ==>
              c !in labels && c in f.rows[i] && r.value.rows[i][c] == f.rows[i][c]
  {
    if labels <= f.cols then
      Ok(Frame(f.cols - labels, seq(|f.rows|, i requires 0 <= i < |f.rows| => f.rows[i] - labels)))
    else
      Err(KeyError(labels - f.cols))
  }

  // ---------------------------------------------------------------- filter

  /** Boolean-mask selection of rows, keeping their order. */
  function Where(rows: seq<Row>, keep: Row -> bool): (r: seq<Row>)
    ensures |r| <= |rows|
    ensures forall o :: o in r <==> o in rows && keep(o)
  {
    if |rows| == 0 then []
    else (if keep(rows[0]) then [rows[0]] else []) + Where(rows[1..], keep)
  }

  /** Selection distributes over concatenation, so it keeps the relative
      order of the rows it keeps. */
  lemma {:induction false} WhereAppend(a: seq<Row>, b: seq<Row>, keep: Row -> bool)
    ensures Where(a + b, keep) == Where(a, keep) + Where(b, keep)
  {
    if |a| == 0 {
      assert a + b == b;
    } else {
      assert (a + b)[1..] == a[1..] + b;
      WhereAppend(a[1..], b, keep);
    }
  }

  /** Selecting twice with the same mask changes nothing. */
  lemma {:induction false} WhereIdempotent(rows: seq<Row>, keep: Row -> bool)
    ensures Where(Where(rows, keep), keep) == Where(rows, keep)
  {
    if |rows| > 0 {
      var head := if keep(rows[0]) then [rows[0]] else [];
      WhereAppend(head, Where(rows[1..], keep), keep);
      WhereIdempotent(rows[1..], keep);
    }
  }

  /** A mask that keeps every row keeps the rows as they are. */
  lemma {:induction false} WhereAll(rows: seq<Row>, keep: Row -> bool)
    requires forall i :: 0 <= i < |rows| ==> keep(rows[i])
    ensures Where(rows, keep) == rows
  {
    if |rows| > 0 {
      WhereAll(rows[1..], keep);
    }
  }

  /** `df['Season'].str.contains('-', na=False)`: the season is text holding '-'. */
  predicate HasSeasonDash(row: Row) {
    SeasonOf(row).Text? && '-' in SeasonOf(row).s
  }

  /** The row filter of lines 269-270 and 291. */
  function FilterSeasons(f: Frame): (r: Frame)
    ensures r.cols == f.cols
    ensures WellFormed(f) ==> WellFormed(r)
    ensures forall o :: o in r.rows <==> o in f.rows && HasSeasonDash(o)
    ensures forall o :: o in r.rows ==> SeasonOf(o) != Text(CareerLabel)
    ensures r.rows == Where(f.rows, HasSeasonDash)
  {
    var rows := Where(f.rows, HasSeasonDash);
    assert forall i :: 0 <= i < |rows| ==> rows[i] in f.rows;
    assert forall o :: o in rows ==> SeasonOf(o) != Text(CareerLabel) by {
      forall o | o in rows ensures SeasonOf(o) != Text(CareerLabel) {
        DashIsNotCareer(SeasonOf(o));
      }
    }
    Frame(f.cols, rows)
  }

  /** No cell of the row is NaN. */
  predicate NoMissing(row: Row) {
    forall c :: c in row ==> row[c] != Missing
  }

  /** `df.dropna()`: keeps the rows without a NaN cell. */
  function DropNa(f: Frame): (r: Frame)
    ensures r.cols == f.cols
    ensures WellFormed(f) ==> WellFormed(r)
    ensures forall o :: o in r.rows <==> o in f.rows && NoMissing(o)
    ensures r.rows == Where(f.rows, NoMissing)
  {
    var rows := Where(f.rows, NoMissing);
    assert forall i :: 0 <= i < |rows| ==> rows[i] in f.rows;
    Frame(f.cols, rows)
  }

  // ---------------------------------------------------------------- merge

  /** The row cut down to the listed columns. */
  function Restrict(o: Row, cols: set<string>): (r: Row)
    ensures r.Keys == o.Keys * cols
    ensures forall c :: c in r ==> r[c] == o[c]
  {
    map c | c in cols && c in o :: o[c]
  }

  /** The rows of a frame cut down to the listed columns, as a set. */
  function Restricted(rows: seq<Row>, cols: set<string>): set<Row> {
    set o | o in rows :: Restrict(o, cols)
  }

  lemma RestrictedHas(rows: seq<Row>, cols: set<string>, o: Row)
    requires o in rows
    ensures Restrict(o, cols) in Restricted(rows, cols)
  {
  }

  lemma RestrictedAppend(a: seq<Row>, b: seq<Row>, cols: set<string>)
    ensures Restricted(a + b, cols) == Restricted(a, cols) + Restricted(b, cols)
  {
    assert forall o :: o in a + b <==> o in a || o in b;
  }

  /** Every listed column of o is NaN. */
  predicate AllMissing(o: Row, cols: set<string>) {
    forall c :: c in cols ==> c in o && o[c] == Missing
  }

  /** Some row of rows joins L and R: cut down to each side's columns it is
      that side's row. */
  predicate Pairs(rows: seq<Row>, L: Row, R: Row, lcols: set<string>, rcols: set<string>) {
    exists o :: o in rows && Restrict(o, lcols) == L && Restrict(o, rcols) == R
  }

  lemma PairsAppend(a: seq<Row>, b: seq<Row>, L: Row, R: Row, lcols: set<string>, rcols: set<string>)
    requires Pairs(a, L, R, lcols, rcols) || Pairs(b, L, R, lcols, rcols)
    ensures Pairs(a + b, L, R, lcols, rcols)
  {
    var o :| (o in a || o in b) && Restrict(o, lcols) == L && Restrict(o, rcols) == R;
    assert o in a + b;
  }

  /** The column layout `pd.merge(..., on='Season')` is given: both sides
      carry the key, and it is the only column they share. */
  predicate JoinShape(lcols: set<string>, rcols: set<string>) {
    SeasonCol in lcols && SeasonCol in rcols && lcols * rcols == {SeasonCol}
  }

  predicate RowsOver(rows: seq<Row>, cols: set<string>) {
    forall R :: R in rows ==> R.Keys == cols
  }

  /** A row widened to `cols`, NaN in the columns it lacks. */
  function Pad(row: Row, cols: set<string>): (r: Row)
    ensures r.Keys == cols
    ensures forall c :: c in cols && c in row ==> r[c] == row[c]
    ensures forall c :: c in cols && c !in row ==> r[c] == Missing
  {
    map c | c in cols :: if c in row then row[c] else Missing
  }

  /** A padded row cut back to its own columns is the row again, and is NaN
      in all the other columns. */
  lemma PadRestrict(row: Row, own: set<string>, other: set<string>)
    requires JoinShape(own, other) && row.Keys == own
    ensures Restrict(Pad(row, own + other), own) == row
    ensures AllMissing(Pad(row, own + other), other - {SeasonCol})
  {
    var p := Pad(row, own + other);
    assert Restrict(p, own).Keys == row.Keys;
    forall c | c in other - {SeasonCol} ensures c !in row {
      assert c !in own * other;
    }
  }

  /** The right rows sharing L's season. */
  function Partners(L: Row, rrows: seq<Row>): (ms: seq<Row>)
    ensures forall R :: R in ms <==> R in rrows && SeasonOf(R) == SeasonOf(L)
  {
    Where(rrows, (R: Row) => SeasonOf(R) == SeasonOf(L))
  }

  /** Joining two rows of one season yields a row that cuts back to each. */
  lemma JoinedRowRestricts(L: Row, R: Row, lcols: set<string>, rcols: set<string>)
    requires JoinShape(lcols, rcols) && L.Keys == lcols && R.Keys == rcols
    requires SeasonOf(R) == SeasonOf(L)
    ensures (L + R).Keys == lcols + rcols
    ensures Restrict(L + R, lcols) == L && Restrict(L + R, rcols) == R
  {
    var o := L + R;
    assert Restrict(o, rcols).Keys == R.Keys;
    assert Restrict(o, lcols).Keys == L.Keys;
    forall c | c in L ensures Restrict(o, lcols)[c] == L[c] {
      if c in R {
        assert c in lcols * rcols;
      }
    }
  }

  /** The season of a row is kept by any cut that keeps the key. */
  lemma SeasonOfRestrict(o: Row, cols: set<string>)
    requires SeasonCol in cols && SeasonCol in o
    ensures SeasonOf(Restrict(o, cols)) == SeasonOf(o)
  {
  }

  /** The output rows of one left row: one per partner, or a single row
      padded with NaN when it has none. */
  function JoinRow(L: Row, rrows: seq<Row>, lcols: set<string>, rcols: set<string>): (out: seq<Row>)
    requires JoinShape(lcols, rcols) && L.Keys == lcols && RowsOver(rrows, rcols)
    ensures |out| > 0
    ensures forall o :: o in out ==> o.Keys == lcols + rcols && Restrict(o, lcols) == L
    ensures forall o :: o in out ==>
              Restrict(o, rcols) in rrows || AllMissing(o, rcols - {SeasonCol})
    ensures forall R :: R in rrows && SeasonOf(R) == SeasonOf(L) ==> R in Restricted(out, rcols)
    ensures forall R :: R in rrows && SeasonOf(R) == SeasonOf(L) ==> Pairs(out, L, R, lcols, rcols)
    ensures forall o :: o in out ==> SeasonOf(o) == SeasonOf(L)
    ensures forall o :: o in out ==> Restrict(o, rcols) in rrows || SeasonOf(L) !in Seasons(rrows)
  {
    var ms := Partners(L, rrows);
    if |ms| == 0 then
      PadRestrict(L, lcols, rcols);
      assert forall i :: 0 <= i < |rrows| ==> rrows[i] in rrows && rrows[i] !in ms;
      [Pad(L, lcols + rcols)]
    else
      var out := seq(|ms|, j requires 0 <= j < |ms| => L + ms[j]);
      forall j | 0 <= j < |ms|
        ensures out[j].Keys == lcols + rcols && Restrict(out[j], lcols) == L && Restrict(out[j], rcols) == ms[j]
      {
        JoinedRowRestricts(L, ms[j], lcols, rcols);
      }
      forall R | R in rrows && SeasonOf(R) == SeasonOf(L)
        ensures R in Restricted(out, rcols) && Pairs(out, L, R, lcols, rcols)
      {
        var o := out[IndexOf(ms, R)];
        RestrictedHas(out, rcols, o);
        assert o in out;
      }
      forall o | o in out ensures SeasonOf(o) == SeasonOf(L) {
        SeasonOfRestrict(o, lcols);
      }
      out
  }

  /** The position of an element in a sequence holding it. */
  function IndexOf(s: seq<Row>, x: Row): (k: nat)
    requires x in s
    ensures k < |s| && s[k] == x
  {
    if s[0] == x then 0 else 1 + IndexOf(s[1..], x)
  }

  /** The left-driven part of the outer join: every left row's output rows, in order. */
  function JoinLeft(lrows: seq<Row>, rrows: seq<Row>, lcols: set<string>, rcols: set<string>): (out: seq<Row>)
    requires JoinShape(lcols, rcols) && RowsOver(lrows, lcols) && RowsOver(rrows, rcols)
    ensures forall o :: o in out ==> o.Keys == lcols + rcols && Restrict(o, lcols) in lrows
    ensures forall o :: o in out ==>
              Restrict(o, rcols) in rrows || AllMissing(o, rcols - {SeasonCol})
    ensures forall L :: L in lrows ==> L in Restricted(out, lcols)
    ensures forall L, R :: L in lrows && R in rrows && SeasonOf(R) == SeasonOf(L) ==>
              R in Restricted(out, rcols)
  {
    if |lrows| == 0 then []
    else
      var head := JoinRow(lrows[0], rrows, lcols, rcols);
      var tail := JoinLeft(lrows[1..], rrows, lcols, rcols);
      JoinLeftStep(lrows, rrows, lcols, rcols, head, tail);
      head + tail
  }

  /** The output rows of the first left row followed by those of the rest
      keep the join's properties for the whole left side. */
  lemma JoinLeftStep(lrows: seq<Row>, rrows: seq<Row>, lcols: set<string>, rcols: set<string>, head: seq<Row>, tail: seq<Row>)
    requires |lrows| > 0 && |head| > 0
    requires forall o :: o in head ==> o.Keys == lcols + rcols && Restrict(o, lcols) == lrows[0]
    requires forall o :: o in head ==> Restrict(o, rcols) in rrows || AllMissing(o, rcols - {SeasonCol})
    requires forall R :: R in rrows && SeasonOf(R) == SeasonOf(lrows[0]) ==> R in Restricted(head, rcols)
    requires forall o :: o in tail ==> o.Keys == lcols + rcols && Restrict(o, lcols) in lrows[1..]
    requires forall o :: o in tail ==> Restrict(o, rcols) in rrows || AllMissing(o, rcols - {SeasonCol})
    requires forall L :: L in lrows[1..] ==> L in Restricted(tail, lcols)
    requires forall L, R :: L in lrows[1..] && R in rrows && SeasonOf(R) == SeasonOf(L) ==> R in Restricted(tail, rcols)
    ensures forall o :: o in head + tail ==> o.Keys == lcols + rcols && Restrict(o, lcols) in lrows
    ensures forall o :: o in head + tail ==>
              Restrict(o, rcols) in rrows || AllMissing(o, rcols - {SeasonCol})
    ensures forall L :: L in lrows ==> L in Restricted(head + tail, lcols)
    ensures forall L, R :: L in lrows && R in rrows && SeasonOf(R) == SeasonOf(L) ==>
              R in Restricted(head + tail, rcols)
  {
    JoinLeftProvenance(lrows, rrows, lcols, rcols, head, tail);
    JoinLeftCoverage(lrows, rrows, lcols, rcols, head, tail);
  }

  /** Every output row traces back to a left row, and to a right row or NaN. */
  lemma JoinLeftProvenance(lrows: seq<Row>, rrows: seq<Row>, lcols: set<string>, rcols: set<string>, head: seq<Row>, tail: seq<Row>)
    requires |lrows| > 0
    requires forall o :: o in head ==> o.Keys == lcols + rcols && Restrict(o, lcols) == lrows[0]
    requires forall o :: o in head ==> Restrict(o, rcols) in rrows || AllMissing(o, rcols - {SeasonCol})
    requires forall o :: o in tail ==> o.Keys == lcols + rcols && Restrict(o, lcols) in lrows[1..]
    requires forall o :: o in tail ==> Restrict(o, rcols) in rrows || AllMissing(o, rcols - {SeasonCol})
    ensures forall o :: o in head + tail ==> o.Keys == lcols + rcols && Restrict(o, lcols) in lrows
    ensures forall o :: o in head + tail ==>
              Restrict(o, rcols) in rrows || AllMissing(o, rcols - {SeasonCol})
  {
    assert forall L :: L in lrows[1..] ==> L in lrows;
    assert forall o :: o in head + tail ==> o in head || o in tail;
  }

  /** Every left row, and every right row sharing a left row's season,
      survives in some output row. */
  lemma JoinLeftCoverage(lrows: seq<Row>, rrows: seq<Row>, lcols: set<string>, rcols: set<string>, head: seq<Row>, tail: seq<Row>)
    requires |lrows| > 0 && |head| > 0
    requires forall o :: o in head ==> Restrict(o, lcols) == lrows[0]
    requires forall R :: R in rrows && SeasonOf(R) == SeasonOf(lrows[0]) ==> R in Restricted(head, rcols)
    requires forall L :: L in lrows[1..] ==> L in Restricted(tail, lcols)
    requires forall L, R :: L in lrows[1..] && R in rrows && SeasonOf(R) == SeasonOf(L) ==> R in Restricted(tail, rcols)
    ensures forall L :: L in lrows ==> L in Restricted(head + tail, lcols)
    ensures forall L, R :: L in lrows && R in rrows && SeasonOf(R) == SeasonOf(L) ==>
              R in Restricted(head + tail, rcols)
  {
    RestrictedAppend(head, tail, lcols);
    RestrictedAppend(head, tail, rcols);
    RestrictedHas(head, lcols, head[0]);
    assert forall L :: L in lrows ==> L == lrows[0] || L in lrows[1..];
  }

  /** The left-driven rows join every left row with every right row of its
      season, and pad a row with NaN only for a season the right side lacks. */
  lemma {:induction false} JoinLeftPairs(lrows: seq<Row>, rrows: seq<Row>, lcols: set<string>, rcols: set<string>)
    requires JoinShape(lcols, rcols) && RowsOver(lrows, lcols) && RowsOver(rrows, rcols)
    ensures forall L, R :: L in lrows && R in rrows && SeasonOf(R) == SeasonOf(L) ==>
              Pairs(JoinLeft(lrows, rrows, lcols, rcols), L, R, lcols, rcols)
    ensures forall o :: o in JoinLeft(lrows, rrows, lcols, rcols) ==>
              Restrict(o, rcols) in rrows || SeasonOf(o) !in Seasons(rrows)
  {
    if |lrows| > 0 {
      var head := JoinRow(lrows[0], rrows, lcols, rcols);
      var tail := JoinLeft(lrows[1..], rrows, lcols, rcols);
      JoinLeftPairs(lrows[1..], rrows, lcols, rcols);
      assert JoinLeft(lrows, rrows, lcols, rcols) == head + tail;
      forall L, R | L in lrows && R in rrows && SeasonOf(R) == SeasonOf(L)
        ensures Pairs(head + tail, L, R, lcols, rcols)
      {
        if L == lrows[0] {
          PairsAppend(head, tail, L, R, lcols, rcols);
        } else {
          assert L in lrows[1..];
          PairsAppend(head, tail, L, R, lcols, rcols);
        }
      }
      assert forall o :: o in head + tail ==> o in head || o in tail;
    }
  }

  /** The right rows whose season no left row has, padded with NaN. */
  function RightOnly(lrows: seq<Row>, rrows: seq<Row>, lcols: set<string>, rcols: set<string>): (out: seq<Row>)
    requires JoinShape(lcols, rcols) && RowsOver(rrows, rcols)
    ensures forall o :: o in out ==> o.Keys == lcols + rcols && AllMissing(o, lcols - {SeasonCol})
    ensures forall o :: o in out ==> Restrict(o, rcols) in rrows
    ensures forall R :: R in rrows && SeasonOf(R) !in Seasons(lrows) ==> R in Restricted(out, rcols)
    ensures forall o :: o in out ==> SeasonOf(o) !in Seasons(lrows)
  {
    var ks := Seasons(lrows);
    var lone := Where(rrows, (R: Row) => SeasonOf(R) !in ks);
    var out := seq(|lone|, j requires 0 <= j < |lone| => Pad(lone[j], rcols + lcols));
    forall j | 0 <= j < |lone|
      ensures out[j].Keys == lcols + rcols && AllMissing(out[j], lcols - {SeasonCol})
      ensures Restrict(out[j], rcols) == lone[j]
      ensures SeasonOf(out[j]) !in ks
    {
      assert lone[j] in rrows && lone[j] in lone;
      PadRestrict(lone[j], rcols, lcols);
    }
    forall R | R in rrows && SeasonOf(R) !in ks ensures R in Restricted(out, rcols) {
      RestrictedHas(out, rcols, out[IndexOf(lone, R)]);
    }
    out
  }

  /** Every season of the output is a season of one of the inputs, and back. */
  lemma {:induction false} MergeSeasons(l: Frame, r: Frame, out: seq<Row>)
    requires JoinShape(l.cols, r.cols) && RowsOver(l.rows, l.cols) && RowsOver(r.rows, r.cols)
    requires forall o :: o in out ==> o.Keys == l.cols + r.cols
    requires forall o :: o in out ==> Restrict(o, l.cols) in l.rows || Restrict(o, r.cols) in r.rows
    requires forall L :: L in l.rows ==> L in Restricted(out, l.cols)
    requires forall R :: R in r.rows ==> R in Restricted(out, r.cols)
    ensures Seasons(out) == Seasons(l.rows) + Seasons(r.rows)
  {
    forall k | k in Seasons(out) ensures k in Seasons(l.rows) + Seasons(r.rows) {
      var j :| 0 <= j < |out| && SeasonOf(out[j]) == k;
      var o := out[j];
      assert o in out;
      if Restrict(o, l.cols) in l.rows {
        SeasonOfRestrict(o, l.cols);
        SeasonsHas(l.rows, Restrict(o, l.cols));
      } else {
        SeasonOfRestrict(o, r.cols);
        SeasonsHas(r.rows, Restrict(o, r.cols));
      }
    }
    forall k | k in Seasons(l.rows) + Seasons(r.rows) ensures k in Seasons(out) {
      var f := if k in Seasons(l.rows) then l else r;
      var cols, rows := f.cols, f.rows;
      var i :| 0 <= i < |rows| && SeasonOf(rows[i]) == k;
      assert rows[i] in rows;
      var o :| o in out && Restrict(o, cols) == rows[i];
      SeasonOfRestrict(o, cols);
      SeasonsHas(out, o);
    }
  }

  lemma SeasonsHas(rows: seq<Row>, x: Row)
    requires x in rows
    ensures SeasonOf(x) in Seasons(rows)
  {
    var i :| 0 <= i < |rows| && rows[i] == x;
  }

  /** The rows of the outer join: the left-driven rows, then the right rows
      no left row matches. */
  function MergeRows(l: Frame, r: Frame): seq<Row>
    requires JoinShape(l.cols, r.cols) && RowsOver(l.rows, l.cols) && RowsOver(r.rows, r.cols)
  {
    JoinLeft(l.rows, r.rows, l.cols, r.cols) + RightOnly(l.rows, r.rows, l.cols, r.cols)
  }

  /** Each joined row has both sides' columns and cuts back to a row of each
      side, or is NaN there apart from the key. */
  lemma MergeProvenance(l: Frame, r: Frame)
    requires JoinShape(l.cols, r.cols) && RowsOver(l.rows, l.cols) && RowsOver(r.rows, r.cols)
    ensures forall o :: o in MergeRows(l, r) ==> o.Keys == l.cols + r.cols
    ensures forall o :: o in MergeRows(l, r) ==>
              Restrict(o, l.cols) in l.rows || AllMissing(o, l.cols - {SeasonCol})
    ensures forall o :: o in MergeRows(l, r) ==>
              Restrict(o, r.cols) in r.rows || AllMissing(o, r.cols - {SeasonCol})
    ensures forall o :: o in MergeRows(l, r) ==>
              Restrict(o, l.cols) in l.rows || Restrict(o, r.cols) in r.rows
  {
    var left := JoinLeft(l.rows, r.rows, l.cols, r.cols);
    var right := RightOnly(l.rows, r.rows, l.cols, r.cols);
    forall o | o in left + right
      ensures Restrict(o, l.cols) in l.rows || AllMissing(o, l.cols - {SeasonCol})
    {
      assert o in left || o in right;
    }
  }

  /** The left-driven rows and the right-only rows together cover both sides. */
  lemma MergeParts(l: Frame, r: Frame)
    requires JoinShape(l.cols, r.cols) && RowsOver(l.rows, l.cols) && RowsOver(r.rows, r.cols)
    ensures forall L :: L in l.rows ==> L in Restricted(MergeRows(l, r), l.cols)
    ensures forall R :: R in r.rows ==> R in Restricted(MergeRows(l, r), r.cols)
  {
    var left := JoinLeft(l.rows, r.rows, l.cols, r.cols);
    var right := RightOnly(l.rows, r.rows, l.cols, r.cols);
    RestrictedAppend(left, right, l.cols);
    RestrictedAppend(left, right, r.cols);
    forall R | R in r.rows ensures R in Restricted(left + right, r.cols) {
      if SeasonOf(R) in Seasons(l.rows) {
        var i :| 0 <= i < |l.rows| && SeasonOf(l.rows[i]) == SeasonOf(R);
        assert l.rows[i] in l.rows;
      }
    }
  }

  /** The left-driven rows and the right-only rows together join every pair
      of rows of one season, and pad only for a season one side lacks. */
  lemma MergePairs(l: Frame, r: Frame)
    requires JoinShape(l.cols, r.cols) && RowsOver(l.rows, l.cols) && RowsOver(r.rows, r.cols)
    ensures forall L, R :: L in l.rows && R in r.rows && SeasonOf(L) == SeasonOf(R) ==>
              Pairs(MergeRows(l, r), L, R, l.cols, r.cols)
    ensures forall o :: o in MergeRows(l, r) ==>
              || (Restrict(o, l.cols) in l.rows && Restrict(o, r.cols) in r.rows)
              || SeasonOf(o) !in Seasons(l.rows)
              || SeasonOf(o) !in Seasons(r.rows)
  {
    var left := JoinLeft(l.rows, r.rows, l.cols, r.cols);
    var right := RightOnly(l.rows, r.rows, l.cols, r.cols);
    JoinLeftPairs(l.rows, r.rows, l.cols, r.cols);
    forall L, R | L in l.rows && R in r.rows && SeasonOf(L) == SeasonOf(R)
      ensures Pairs(left + right, L, R, l.cols, r.cols)
    {
      PairsAppend(left, right, L, R, l.cols, r.cols);
    }
    assert forall o :: o in left + right ==> o in left || o in right;
  }

  /** `pd.merge(left, right, how='outer', on='Season')` on tables whose only
      shared column is the key.  Every season of either side appears; each
      output row cut down to one side's columns is a row of that side, or is
      NaN there apart from the key; every input row survives in some output
      row; every left and right row of one season are joined in some output
      row; and a row is padded with NaN only for a season one side lacks. */
  function OuterMerge(l: Frame, r: Frame): (m: Frame)
    requires WellFormed(l) && WellFormed(r) && JoinShape(l.cols, r.cols)
    ensures WellFormed(m) && m.cols == l.cols + r.cols
    ensures Seasons(m.rows) == Seasons(l.rows) + Seasons(r.rows)
    ensures forall o :: o in m.rows ==>
              Restrict(o, l.cols) in l.rows || AllMissing(o, l.cols - {SeasonCol})
    ensures forall o :: o in m.rows ==>
              Restrict(o, r.cols) in r.rows || AllMissing(o, r.cols - {SeasonCol})
    ensures forall o :: o in m.rows ==>
              Restrict(o, l.cols) in l.rows || Restrict(o, r.cols) in r.rows
    ensures forall L :: L in l.rows ==> L in Restricted(m.rows, l.cols)
    ensures forall R :: R in r.rows ==> R in Restricted(m.rows, r.cols)
    ensures forall L, R :: L in l.rows && R in r.rows && SeasonOf(L) == SeasonOf(R) ==>
              Pairs(m.rows, L, R, l.cols, r.cols)
    ensures forall o :: o in m.rows ==>
              || (Restrict(o, l.cols) in l.rows && Restrict(o, r.cols) in r.rows)
              || SeasonOf(o) !in Seasons(l.rows)
              || SeasonOf(o) !in Seasons(r.rows)
  {
    assert RowsOver(l.rows, l.cols) && RowsOver(r.rows, r.cols);
    MergeProvenance(l, r);
    MergeParts(l, r);
    MergePairs(l, r);
    MergeShape(l, r);
    Frame(l.cols + r.cols, MergeRows(l, r))
  }

  /** The joined rows form a well-formed frame over both sides' columns,
      holding the seasons of both sides. */
  lemma MergeShape(l: Frame, r: Frame)
    requires JoinShape(l.cols, r.cols) && RowsOver(l.rows, l.cols) && RowsOver(r.rows, r.cols)
    ensures WellFormed(Frame(l.cols + r.cols, MergeRows(l, r)))
    ensures Seasons(MergeRows(l, r)) == Seasons(l.rows) + Seasons(r.rows)
  {
    var out := MergeRows(l, r);
    MergeProvenance(l, r);
    MergeParts(l, r);
    MergeSeasons(l, r, out);
    assert forall j :: 0 <= j < |out| ==> out[j] in out;
  }

  // ---------------------------------------------------------------- pipeline

  /** The tables `determine_peak_season` receives. */
  datatype SeasonTables = SeasonTables(regular: Frame, playoff: Frame)

  /** The empty playoff frame of the no-playoffs branch, `pd.DataFrame({'P': []})`. */
  const NoPlayoffFrame: Frame := Frame({"P"}, [])

  /** A per-game table and its advanced table can be joined once the identity
      columns are gone: both are well formed with a `Season` column, and the
      key is the only column they then share. */
  predicate Joinable(primary: Frame, adv: Frame) {
    && WellFormed(primary) && WellFormed(adv)
    && JoinShape(primary.cols - DropList, adv.cols)
  }

  /** Drop, join and filter one per-game table against its advanced table,
      as the made-playoffs branch does for both of its tables. */
  function Prepare(primary: Frame, adv: Frame): (r: Result<Frame>)
    requires Joinable(primary, adv)
    ensures r.Ok? <==> DropList <= primary.cols
    ensures r.Err? ==> r.error == KeyError(DropList - primary.cols)
    ensures r.Ok? ==> WellFormed(r.value) && r.value.cols == (primary.cols - DropList) + adv.cols
    ensures r.Ok? ==> forall o :: o in r.value.rows ==> HasSeasonDash(o)
    ensures r.Ok? ==>
              Seasons(r.value.rows) == set k | k in Seasons(primary.rows) + Seasons(adv.rows) && k.Text? && '-' in k.s
    ensures r.Ok? ==> forall o :: o in r.value.rows ==>
              || Restrict(o, primary.cols - DropList) in Restricted(primary.rows, primary.cols - DropList)
              || AllMissing(o, primary.cols - DropList - {SeasonCol})
    ensures r.Ok? ==> forall o :: o in r.value.rows ==>
              Restrict(o, adv.cols) in adv.rows || AllMissing(o, adv.cols - {SeasonCol})
    ensures r.Ok? ==> forall o :: o in r.value.rows ==>
              || Restrict(o, primary.cols - DropList) in Restricted(primary.rows, primary.cols - DropList)
              || Restrict(o, adv.cols) in adv.rows
    ensures r.Ok? ==> forall L :: L in Restricted(primary.rows, primary.cols - DropList) && HasSeasonDash(L) ==>
              L in Restricted(r.value.rows, primary.cols - DropList)
    ensures r.Ok? ==> forall R :: R in adv.rows && HasSeasonDash(R) ==> R in Restricted(r.value.rows, adv.cols)
    ensures r.Ok? ==> r.value.cols * DropList <= adv.cols
    ensures r.Ok? ==> forall L, R ::
              && L in Restricted(primary.rows, primary.cols - DropList) && R in adv.rows
              && SeasonOf(L) == SeasonOf(R) && HasSeasonDash(R)
              ==> Pairs(r.value.rows, L, R, primary.cols - DropList, adv.cols)
    ensures r.Ok? ==> forall o :: o in r.value.rows ==>
              || (&& Restrict(o, primary.cols - DropList) in Restricted(primary.rows, primary.cols - DropList)
                  && Restrict(o, adv.cols) in adv.rows)
              || SeasonOf(o) !in Seasons(primary.rows)
              || SeasonOf(o) !in Seasons(adv.rows)
  {
    var dropped :- DropColumns(primary, DropList);
    var merged := OuterMerge(dropped, adv);
    var kept := FilterSeasons(merged);
    FilteredSeasons(merged.rows);
    DroppedSeasons(primary, dropped);
    DroppedRows(primary, dropped);
    PreparePairs(primary, adv, dropped);
    PreparePadding(primary, adv, dropped);
    PrepareProvenance(primary, adv, dropped);
    PrepareCoverage(primary, adv, dropped);
    Ok(kept)
  }

  /** After the drop, the join and the filter, every per-game row and advanced
      row of one '-' season are still joined in some row. */
  lemma PreparePairs(primary: Frame, adv: Frame, dropped: Frame)
    requires Joinable(primary, adv) && DropList <= primary.cols
    requires DropColumns(primary, DropList) == Ok(dropped)
    ensures var kept := FilterSeasons(OuterMerge(dropped, adv)).rows;
            forall L, R ::
              && L in Restricted(primary.rows, primary.cols - DropList) && R in adv.rows
              && SeasonOf(L) == SeasonOf(R) && HasSeasonDash(R)
              ==> Pairs(kept, L, R, primary.cols - DropList, adv.cols)
  {
    var pc := primary.cols - DropList;
    var merged := OuterMerge(dropped, adv);
    DroppedRows(primary, dropped);
    forall L, R | L in Restricted(primary.rows, pc) && R in adv.rows && SeasonOf(L) == SeasonOf(R) && HasSeasonDash(R)
      ensures Pairs(FilterSeasons(merged).rows, L, R, pc, adv.cols)
    {
      FilterKeepsPairs(merged.rows, L, R, pc, adv.cols);
    }
  }

  /** The season filter keeps a joined row whose right side has a '-' season. */
  lemma FilterKeepsPairs(rows: seq<Row>, L: Row, R: Row, lcols: set<string>, rcols: set<string>)
    requires SeasonCol in rcols && HasSeasonDash(R)
    requires Pairs(rows, L, R, lcols, rcols)
    ensures Pairs(Where(rows, HasSeasonDash), L, R, lcols, rcols)
  {
    var o :| o in rows && Restrict(o, lcols) == L && Restrict(o, rcols) == R;
    assert SeasonCol in o by {
      assert SeasonCol in R;
    }
    SeasonOfRestrict(o, rcols);
    assert o in Where(rows, HasSeasonDash);
  }

  /** After the drop, the join and the filter, a row is padded with NaN only
      for a season one table lacks. */
  lemma PreparePadding(primary: Frame, adv: Frame, dropped: Frame)
    requires Joinable(primary, adv) && DropList <= primary.cols
    requires DropColumns(primary, DropList) == Ok(dropped)
    ensures var kept := FilterSeasons(OuterMerge(dropped, adv)).rows;
            forall o :: o in kept ==>
              || (&& Restrict(o, primary.cols - DropList) in Restricted(primary.rows, primary.cols - DropList)
                  && Restrict(o, adv.cols) in adv.rows)
              || SeasonOf(o) !in Seasons(primary.rows)
              || SeasonOf(o) !in Seasons(adv.rows)
  {
    var pc := primary.cols - DropList;
    var merged := OuterMerge(dropped, adv);
    var kept := FilterSeasons(merged).rows;
    DroppedRows(primary, dropped);
    DroppedSeasons(primary, dropped);
    KeptPadding(merged.rows, kept, dropped.rows, primary.rows, adv.rows, pc, adv.cols);
  }

  /** After the drop, the join and the filter, every row comes from a
      per-game row or an advanced row. */
  lemma PrepareProvenance(primary: Frame, adv: Frame, dropped: Frame)
    requires Joinable(primary, adv) && DropList <= primary.cols
    requires DropColumns(primary, DropList) == Ok(dropped)
    ensures var kept := FilterSeasons(OuterMerge(dropped, adv)).rows;
            forall o :: o in kept ==>
              || Restrict(o, primary.cols - DropList) in Restricted(primary.rows, primary.cols - DropList)
              || Restrict(o, adv.cols) in adv.rows
  {
    var merged := OuterMerge(dropped, adv);
    DroppedRows(primary, dropped);
    KeptProvenance(merged.rows, FilterSeasons(merged).rows, dropped.rows, primary.rows, adv.rows,
                   primary.cols - DropList, adv.cols);
  }

  /** After the drop, the join and the filter, every per-game row and every
      advanced row with a '-' season survives in some row. */
  lemma PrepareCoverage(primary: Frame, adv: Frame, dropped: Frame)
    requires Joinable(primary, adv) && DropList <= primary.cols
    requires DropColumns(primary, DropList) == Ok(dropped)
    ensures var kept := FilterSeasons(OuterMerge(dropped, adv)).rows;
            && (forall L :: L in Restricted(primary.rows, primary.cols - DropList) && HasSeasonDash(L) ==>
                  L in Restricted(kept, primary.cols - DropList))
            && (forall R :: R in adv.rows && HasSeasonDash(R) ==> R in Restricted(kept, adv.cols))
  {
    var merged := OuterMerge(dropped, adv);
    DroppedRows(primary, dropped);
    forall L | L in Restricted(primary.rows, primary.cols - DropList) && HasSeasonDash(L)
      ensures L in Restricted(FilterSeasons(merged).rows, primary.cols - DropList)
    {
      FilterKeepsRow(merged.rows, L, primary.cols - DropList);
    }
    forall R | R in adv.rows && HasSeasonDash(R) ensures R in Restricted(FilterSeasons(merged).rows, adv.cols) {
      FilterKeepsRow(merged.rows, R, adv.cols);
    }
  }

  /** The season filter keeps a joined row that cuts back to a row with a '-' season. */
  lemma FilterKeepsRow(rows: seq<Row>, x: Row, cols: set<string>)
    requires SeasonCol in cols && HasSeasonDash(x)
    requires x in Restricted(rows, cols)
    ensures x in Restricted(Where(rows, HasSeasonDash), cols)
  {
    var o :| o in rows && Restrict(o, cols) == x;
    assert SeasonCol in o by {
      assert SeasonCol in x;
    }
    SeasonOfRestrict(o, cols);
    RestrictedHas(Where(rows, HasSeasonDash), cols, o);
  }

  /** Coming from a row of one side survives keeping a subset of the joined
      rows and renaming the left rows back to their source table. */
  lemma KeptProvenance(merged: seq<Row>, kept: seq<Row>, dropped: seq<Row>, primary: seq<Row>, adv: seq<Row>,
                       pc: set<string>, ac: set<string>)
    requires forall o :: o in kept ==> o in merged
    requires forall o :: o in merged ==> Restrict(o, pc) in dropped || Restrict(o, ac) in adv
    requires forall o :: o in dropped ==> o in Restricted(primary, pc)
    ensures forall o :: o in kept ==> Restrict(o, pc) in Restricted(primary, pc) || Restrict(o, ac) in adv
  {
  }

  /** Padding only for a season one side lacks survives keeping a subset of
      the joined rows and renaming the left rows back to their source table. */
  lemma KeptPadding(merged: seq<Row>, kept: seq<Row>, dropped: seq<Row>, primary: seq<Row>, adv: seq<Row>,
                    pc: set<string>, ac: set<string>)
    requires forall o :: o in kept ==> o in merged
    requires forall o :: o in merged ==>
               || (Restrict(o, pc) in dropped && Restrict(o, ac) in adv)
               || SeasonOf(o) !in Seasons(dropped)
               || SeasonOf(o) !in Seasons(adv)
    requires forall o :: o in dropped ==> o in Restricted(primary, pc)
    requires Seasons(dropped) == Seasons(primary)
    ensures forall o :: o in kept ==>
              || (Restrict(o, pc) in Restricted(primary, pc) && Restrict(o, ac) in adv)
              || SeasonOf(o) !in Seasons(primary)
              || SeasonOf(o) !in Seasons(adv)
  {
  }

  /** Each row left by the drop is a row of the table cut down to the kept columns. */
  lemma DroppedRows(primary: Frame, dropped: Frame)
    requires WellFormed(primary) && DropList <= primary.cols
    requires DropColumns(primary, DropList) == Ok(dropped)
    ensures forall o :: o in dropped.rows ==> o in Restricted(primary.rows, primary.cols - DropList)
    ensures forall L :: L in Restricted(primary.rows, primary.cols - DropList) ==> L in dropped.rows
  {
    DroppedRowsCover(primary, dropped);
    forall o | o in dropped.rows ensures o in Restricted(primary.rows, primary.cols - DropList) {
      var i :| 0 <= i < |dropped.rows| && dropped.rows[i] == o;
      assert o == Restrict(primary.rows[i], primary.cols - DropList);
    }
  }

  /** The drop keeps every row's season. */
  lemma DroppedSeasons(primary: Frame, dropped: Frame)
    requires WellFormed(primary) && SeasonCol in primary.cols - DropList
    requires DropColumns(primary, DropList) == Ok(dropped)
    ensures Seasons(dropped.rows) == Seasons(primary.rows)
  {
    forall i | 0 <= i < |primary.rows| ensures SeasonOf(dropped.rows[i]) == SeasonOf(primary.rows[i]) {
      assert SeasonCol in dropped.rows[i];
    }
    forall k | k in Seasons(primary.rows) ensures k in Seasons(dropped.rows) {
      var j :| 0 <= j < |primary.rows| && SeasonOf(primary.rows[j]) == k;
      assert SeasonOf(dropped.rows[j]) == k;
    }
  }

  /** Each row of the table cut down to the kept columns is left by the drop. */
  lemma DroppedRowsCover(primary: Frame, dropped: Frame)
    requires WellFormed(primary) && DropList <= primary.cols
    requires DropColumns(primary, DropList) == Ok(dropped)
    ensures forall L :: L in Restricted(primary.rows, primary.cols - DropList) ==> L in dropped.rows
  {
    forall L | L in Restricted(primary.rows, primary.cols - DropList) ensures L in dropped.rows {
      var o :| o in primary.rows && L == Restrict(o, primary.cols - DropList);
      var i :| 0 <= i < |primary.rows| && primary.rows[i] == o;
      assert dropped.rows[i].Keys == L.Keys;
      assert dropped.rows[i] == L;
    }
  }

  /** The seasons surviving the filter are the merged seasons holding '-'. */
  lemma FilteredSeasons(merged: seq<Row>)
    ensures Seasons(Where(merged, HasSeasonDash)) ==
            set k | k in Seasons(merged) && k.Text? && '-' in k.s
  {
    var kept := Where(merged, HasSeasonDash);
    forall k | k in Seasons(merged) && k.Text? && '-' in k.s ensures k in Seasons(kept) {
      var j :| 0 <= j < |merged| && SeasonOf(merged[j]) == k;
      assert merged[j] in merged;
      SeasonsHas(kept, merged[j]);
    }
    forall k | k in Seasons(kept) ensures k in Seasons(merged) && k.Text? && '-' in k.s {
      var j :| 0 <= j < |kept| && SeasonOf(kept[j]) == k;
      assert kept[j] in kept;
      assert HasSeasonDash(kept[j]);
      SeasonsHas(merged, kept[j]);
    }
  }

  /** The four tables a player's page yields, fetched or not: the regular
      per-game and advanced tables, and the playoff per-game and advanced
      tables.  Which page table lands in which field is not modelled. */
  datatype Fetched = Fetched(regular: Frame, regularAdv: Frame, playoff: Frame, playoffAdv: Frame)

  /** The player reached the playoffs: the playoff advanced table is not empty. */
  predicate MadePlayoffs(t: Fetched) {
    !IsEmpty(t.playoffAdv)
  }

  /** What `player_tables` needs of the tables it joins: the regular pair
      always, the playoff pair only in the made-playoffs branch. */
  predicate Fetchable(t: Fetched) {
    && Joinable(t.regular, t.regularAdv)
    && (MadePlayoffs(t) ==> Joinable(t.playoff, t.playoffAdv))
  }

  /** `player_tables` with the no-playoffs branch joining the regular advanced
      table, as the made-playoffs branch does.  Without playoffs the playoff
      table is the empty placeholder and the regular table also loses every
      row holding a NaN. */
  function PlayerTables(t: Fetched): (r: Result<SeasonTables>)
    requires Fetchable(t)
    ensures r.Ok? <==> DropList <= t.regular.cols && (MadePlayoffs(t) ==> DropList <= t.playoff.cols)
    ensures r.Err? ==> r.error.KeyError?
    ensures r.Ok? ==> WellFormed(r.value.regular) && WellFormed(r.value.playoff)
    ensures r.Ok? ==> r.value.regular.cols == (t.regular.cols - DropList) + t.regularAdv.cols
    ensures r.Ok? ==> forall o :: o in r.value.regular.rows ==> HasSeasonDash(o)
    ensures r.Ok? && MadePlayoffs(t) ==>
              && r.value.regular == Prepare(t.regular, t.regularAdv).value
              && r.value.playoff == Prepare(t.playoff, t.playoffAdv).value
    ensures r.Ok? && MadePlayoffs(t) ==>
              && r.value.playoff.cols == (t.playoff.cols - DropList) + t.playoffAdv.cols
              && forall o :: o in r.value.playoff.rows ==> HasSeasonDash(o)
    ensures r.Ok? && !MadePlayoffs(t) ==>
              && IsEmpty(r.value.playoff)
              && forall o :: o in r.value.regular.rows ==> NoMissing(o)
    ensures r.Ok? && !MadePlayoffs(t) ==> forall o :: o in r.value.regular.rows <==>
              o in Prepare(t.regular, t.regularAdv).value.rows && NoMissing(o)
    ensures r.Ok? && !MadePlayoffs(t) ==> r.value.regular == DropNa(Prepare(t.regular, t.regularAdv).value)
  {
    if MadePlayoffs(t) then
      var regular :- Prepare(t.regular, t.regularAdv);
      var playoff :- Prepare(t.playoff, t.playoffAdv);
      Ok(SeasonTables(regular, playoff))
    else
      var regular :- Prepare(t.regular, t.regularAdv);
      Ok(SeasonTables(DropNa(regular), NoPlayoffFrame))
  }

  /** The no-playoffs branch as written: after the drop it joins `adv_df`, a
      name defined nowhere in the module, so it always raises. */
  function NoPlayoffTablesAsWritten(t: Fetched): (r: Result<SeasonTables>)
    ensures r.Err?
    ensures r.error.KeyError? <==> !(DropList <= t.regular.cols)
    ensures r.error.NameError? ==> r.error.name == "adv_df"
  {
    var _ :- DropColumns(t.regular, DropList);
    Err(NameError("adv_df"))
  }

  /** `player_tables` as written: the made-playoffs branch as modelled, the
      other branch raising. */
  function PlayerTablesAsWritten(t: Fetched): (r: Result<SeasonTables>)
    requires Fetchable(t)
    ensures MadePlayoffs(t) ==> r == PlayerTables(t)
    ensures !MadePlayoffs(t) ==> r.Err?
  {
    if MadePlayoffs(t) then PlayerTables(t) else NoPlayoffTablesAsWritten(t)
  }

  /** For a player without playoffs whose regular table carries the identity
      columns, the written code raises where the intended join succeeds. */
  lemma NoPlayoffsAsWrittenFails(t: Fetched)
    requires Fetchable(t) && !MadePlayoffs(t) && DropList <= t.regular.cols
    ensures PlayerTablesAsWritten(t) == Err(NameError("adv_df"))
    ensures PlayerTables(t).Ok?
  {
  }
}

=== FILE: text.dfy ===
/** The Python string operations the player lookup and the info-box parser
    use: `strip`, `lower`, `in`, `split(sep, 1)`, `split(sep)`, `join` and
    `replace('\n', '')`. */
module Text {
  import opened Base

  // ---------------------------------------------------------------- strip

  /** Python `str.isspace` for one character. */
  predicate IsSpace(c: char) {
    || ('\t' <= c <= '\r')
    || ('\U{1C}' <= c <= '\U{1F}')
    || c == ' ' || c == '\U{85}' || c == '\U{A0}' || c == '\U{1680}'
    || ('\U{2000}' <= c <= '\U{200A}')
    || c == '\U{2028}' || c == '\U{2029}' || c == '\U{202F}' || c == '\U{205F}' || c == '\U{3000}'
  }

  predicate AllSpace(s: string) {
    forall k :: 0 <= k < |s| ==> IsSpace(s[k])
  }

  /** r is s without its leading and trailing whitespace, found at index i. */
  ghost predicate StrippedAt(r: string, s: string, i: int) {
    && 0 <= i && i + |r| <= |s|
    && r == s[i..i + |r|]
    && AllSpace(s[..i]) && AllSpace(s[i + |r|..])
    && (|r| > 0 ==> !IsSpace(r[0]) && !IsSpace(r[|r| - 1]))
  }

  /** The reference meaning of `s.strip()`. */
  ghost predicate IsStripOf(r: string, s: string) {
    exists i :: StrippedAt(r, s, i)
  }

  /** The number of whitespace characters s starts with. */
  function LeadingSpaces(s: string): (n: nat)
    ensures n <= |s| && AllSpace(s[..n])
    ensures n < |s| ==> !IsSpace(s[n])
  {
    if |s| == 0 || !IsSpace(s[0]) then 0
    else
      var n := 1 + LeadingSpaces(s[1..]);
      assert forall k :: 1 <= k < n ==> s[..n][k] == s[1..][..n - 1][k - 1];
      n
  }

  /** The number of whitespace characters s ends with. */
  function TrailingSpaces(s: string): (n: nat)
    ensures n <= |s| && AllSpace(s[|s| - n..])
    ensures n < |s| ==> !IsSpace(s[|s| - n - 1])
  {
    if |s| == 0 || !IsSpace(s[|s| - 1]) then 0
    else
      var init := s[..|s| - 1];
      var m := TrailingSpaces(init);
      assert s[|s| - (m + 1)..] == init[|init| - m..] + [s[|s| - 1]];
      AllSpaceConcat(init[|init| - m..], [s[|s| - 1]]);
      m + 1
  }

  /** Python `str.strip()`. */
  function Strip(s: string): (r: string)
    ensures IsStripOf(r, s)
  {
    var a := LeadingSpaces(s);
    var t := s[a..];
    var b := TrailingSpaces(t);
    var r := t[..|t| - b];
    assert r == s[a..a + |r|];
    assert s[a + |r|..] == t[|t| - b..];
    assert StrippedAt(r, s, a);
    r
  }

  /** Where a stripped form sits is fixed by s alone: a non-empty one runs
      from the first to the last non-whitespace character, and only an
      all-whitespace string has the empty one. */
  lemma StrippedLocation(s: string, r: string, i: int)
    requires StrippedAt(r, s, i)
    ensures |r| > 0 ==> i == LeadingSpaces(s) && i + |r| == |s| - TrailingSpaces(s)
    ensures |r| == 0 <==> LeadingSpaces(s) == |s|
  {
    StrippedStart(s, r, i);
    if |r| > 0 {
      StrippedEnd(s, r, i);
    }
  }

  lemma StrippedStart(s: string, r: string, i: int)
    requires StrippedAt(r, s, i)
    ensures |r| > 0 ==> i == LeadingSpaces(s)
    ensures |r| == 0 <==> LeadingSpaces(s) == |s|
  {
    var n := LeadingSpaces(s);
    var e := i + |r|;
    assert forall k :: 0 <= k < i ==> s[..i][k] == s[k];
    assert forall k :: 0 <= k < n ==> s[..n][k] == s[k];
    assert forall k :: e <= k < |s| ==> s[e..][k - e] == s[k];
    assert |r| > 0 ==> r[0] == s[i];
  }

  lemma StrippedEnd(s: string, r: string, i: int)
    requires StrippedAt(r, s, i) && |r| > 0
    ensures i + |r| == |s| - TrailingSpaces(s)
  {
    var m := TrailingSpaces(s);
    var e := i + |r|;
    assert forall k :: e <= k < |s| ==> s[e..][k - e] == s[k];
    assert forall k :: |s| - m <= k < |s| ==> s[|s| - m..][k - (|s| - m)] == s[k];
    assert r[|r| - 1] == s[e - 1];
  }

  /** A string has only one stripped form. */
  lemma {:induction false} StripUnique(s: string, r1: string, r2: string)
    requires IsStripOf(r1, s) && IsStripOf(r2, s)
    ensures r1 == r2
  {
    var i1 :| StrippedAt(r1, s, i1);
    var i2 :| StrippedAt(r2, s, i2);
    StrippedLocation(s, r1, i1);
    StrippedLocation(s, r2, i2);
  }

  /** A stripped form neither starts nor ends with whitespace. */
  lemma StripEnds(s: string)
    ensures |Strip(s)| > 0 ==> !IsSpace(Strip(s)[0]) && !IsSpace(Strip(s)[|Strip(s)| - 1])
  {
    var i :| StrippedAt(Strip(s), s, i);
  }

  /** Stripping twice is stripping once. */
  lemma {:induction false} StripIdempotent(s: string)
    ensures Strip(Strip(s)) == Strip(s)
  {
    var r := Strip(s);
    var i :| StrippedAt(r, s, i);
    assert StrippedAt(r, r, 0) by {
      assert r[..0] == [] && r[|r|..] == [];
    }
    StripUnique(r, r, Strip(r));
  }

  /** Whitespace around a string does not change its stripped form. */
  lemma {:induction false} StripPadding(pre: string, s: string, post: string)
    requires AllSpace(pre) && AllSpace(post)
    ensures Strip(pre + s + post) == Strip(s)
  {
    var r := Strip(s);
    var i :| StrippedAt(r, s, i);
    PaddedStripped(pre, s, post, r, i);
    StripUnique(pre + s + post, r, Strip(pre + s + post));
  }

  /** A stripped form of s, shifted past the padding, is one of the padded string. */
  lemma PaddedStripped(pre: string, s: string, post: string, r: string, i: int)
    requires AllSpace(pre) && AllSpace(post) && StrippedAt(r, s, i)
    ensures StrippedAt(r, pre + s + post, |pre| + i)
  {
    var w := pre + s + post;
    var j, e := |pre| + i, i + |r|;
    assert w[j..j + |r|] == s[i..e];
    assert w[..j] == pre + s[..i];
    assert w[j + |r|..] == s[e..] + post;
    AllSpaceConcat(pre, s[..i]);
    AllSpaceConcat(s[e..], post);
  }

  lemma AllSpaceConcat(a: string, b: string)
    requires AllSpace(a) && AllSpace(b)
    ensures AllSpace(a + b)
  {
    assert forall k :: |a| <= k < |a + b| ==> (a + b)[k] == b[k - |a|];
  }

  // ---------------------------------------------------------------- lower

  /** An ASCII capital letter. */
  predicate IsUpper(c: char) {
    'A' <= c <= 'Z'
  }

  /** `c.lower()` on ASCII letters. */
  function LowerChar(c: char): (d: char)
    ensures !IsUpper(d)
    ensures IsUpper(c) ==> d as int == c as int + 32
    ensures !IsUpper(c) ==> d == c
    ensures IsSpace(d) <==> IsSpace(c)
  {
    if IsUpper(c) then (c as int + 32) as char else c
  }

  /** `s.lower()`, folding ASCII capitals only. */
  function Lower(s: string): (r: string)
    ensures |r| == |s|
    ensures forall k :: 0 <= k < |s| ==> r[k] == LowerChar(s[k])
  {
    seq(|s|, k requires 0 <= k < |s| => LowerChar(s[k]))
  }

  /** Lowering is a no-op on text without capitals, so lowering twice is lowering once. */
  lemma LowerIdempotent(s: string)
    ensures Lower(Lower(s)) == Lower(s)
  {
  }

  lemma LowerSlice(s: string, a: int, b: int)
    requires 0 <= a <= b <= |s|
    ensures Lower(s)[a..b] == Lower(s[a..b])
  {
  }

  lemma LowerAllSpace(t: string)
    ensures AllSpace(Lower(t)) <==> AllSpace(t)
  {
    assert forall k :: 0 <= k < |t| ==> Lower(t)[k] == LowerChar(t[k]);
  }

  /** Lowering and stripping commute: lowering keeps every whitespace character. */
  lemma {:induction false} StripLower(s: string)
    ensures Strip(Lower(s)) == Lower(Strip(s))
  {
    var r := Strip(s);
    var i :| StrippedAt(r, s, i);
    LowerStripped(s, r, i);
    StripUnique(Lower(s), Lower(r), Strip(Lower(s)));
  }

  /** Lowering a string and its stripped form keeps them in the stripped relation. */
  lemma LowerStripped(s: string, r: string, i: int)
    requires StrippedAt(r, s, i)
    ensures StrippedAt(Lower(r), Lower(s), i)
  {
    var e := i + |r|;
    LowerSlice(s, 0, i);
    LowerSlice(s, i, e);
    LowerSlice(s, e, |s|);
    assert s[..i] == s[0..i] && s[e..] == s[e..|s|];
    assert Lower(s)[..i] == Lower(s)[0..i] && Lower(s)[e..] == Lower(s)[e..|s|];
    LowerAllSpace(s[..i]);
    LowerAllSpace(s[e..]);
  }

  // ---------------------------------------------------------------- search

  /** Python `sub in s` for strings. */
  predicate Contains(s: string, sub: string) {
    exists i :: 0 <= i <= |s| - |sub| && OccursAt(s, sub, i)
  }

  /** sub is the slice of s starting at i. */
  predicate OccursAt(s: string, sub: string, i: int) {
    0 <= i <= |s| - |sub| && s[i..i + |sub|] == sub
  }

  /** The index of the first c in s, if there is one. */
  function Find(s: string, c: char): (k: Option<nat>)
    ensures k.None? <==> c !in s
    ensures k.Some? ==> k.value < |s| && s[k.value] == c && c !in s[..k.value]
  {
    if |s| == 0 then None
    else if s[0] == c then Some(0)
    else
      var k := Find(s[1..], c);
      assert c in s[1..] ==> c in s;
      assert c in s ==> s[0] == c || c in s[1..];
      if k.None? then None
      else
        assert s[..k.value + 1] == [s[0]] + s[1..][..k.value];
        Some(k.value + 1)
  }

  // ---------------------------------------------------------------- split, join

  /** Python `s.split(c, 1)`: the text before the first c and, when there is
      one, the text after it. */
  function SplitOnce(s: string, c: char): (parts: seq<string>)
    ensures |parts| == 1 || |parts| == 2
    ensures |parts| == 1 <==> c !in s
    ensures |parts| == 1 ==> parts[0] == s
    ensures |parts| == 2 ==> parts[0] + [c] + parts[1] == s && c !in parts[0]
  {
    match Find(s, c)
    case None => [s]
    case Some(k) =>
      assert s[..k] + [c] + s[k + 1..] == s;
      [s[..k], s[k + 1..]]
  }

  /** Splitting at a separator the head does not hold gives back head and tail. */
  lemma {:induction false} SplitOnceJoin(a: string, c: char, b: string)
    requires c !in a
    ensures SplitOnce(a + [c] + b, c) == [a, b]
  {
    var s := a + [c] + b;
    assert s[|a|] == c && s[..|a|] == a;
    var k := Find(s, c).value;
    assert forall j :: 0 <= j < |a| ==> s[j] == a[j];
    assert s[k] == c && c !in s[..k];
    assert k == |a|;
  }

  /** Python `s.split(c)`: the pieces between the separators. */
  function SplitAll(s: string, c: char): (parts: seq<string>)
    ensures |parts| >= 1
    ensures forall k :: 0 <= k < |parts| ==> c !in parts[k]
    decreases |s|
  {
    var p := SplitOnce(s, c);
    if |p| == 1 then [s] else [p[0]] + SplitAll(p[1], c)
  }

  /** Python `sep.join(parts)` for a one-character separator. */
  function Join(parts: seq<string>, c: char): (s: string)
    ensures |parts| == 1 ==> s == parts[0]
    ensures (forall k :: 0 <= k < |parts| ==> c !in parts[k]) ==> (c in s <==> |parts| >= 2)
  {
    if |parts| == 0 then ""
    else if |parts| == 1 then parts[0]
    else
      var rest := Join(parts[1..], c);
      assert forall k :: 1 <= k < |parts| ==> parts[1..][k - 1] == parts[k];
      parts[0] + [c] + rest
  }

  /** Splitting a join recovers the pieces when none holds the separator. */
  lemma {:induction false} SplitJoin(parts: seq<string>, c: char)
    requires |parts| >= 1
    requires forall k :: 0 <= k < |parts| ==> c !in parts[k]
    ensures SplitAll(Join(parts, c), c) == parts
  {
    if |parts| >= 2 {
      var rest := Join(parts[1..], c);
      SplitOnceJoin(parts[0], c, rest);
      SplitJoin(parts[1..], c);
      assert [parts[0]] + parts[1..] == parts;
    }
  }

  // ---------------------------------------------------------------- replace

  /** `s.replace('\n', '')`: s with every newline removed, order kept. */
  function RemoveNewlines(s: string): (r: string)
    ensures '\n' !in r
    ensures |r| <= |s|
    ensures forall c :: c != '\n' ==> (c in r <==> c in s)
  {
    if |s| == 0 then ""
    else
      var rest := RemoveNewlines(s[1..]);
      assert forall c :: c in s <==> c == s[0] || c in s[1..];
      (if s[0] == '\n' then "" else [s[0]]) + rest
  }

  /** Removing newlines works piece by piece, so the other characters keep
      their order and their number. */
  lemma {:induction false} RemoveNewlinesAppend(a: string, b: string)
    ensures RemoveNewlines(a + b) == RemoveNewlines(a) + RemoveNewlines(b)
  {
    if |a| == 0 {
      assert a + b == b;
    } else {
      assert (a + b)[0] == a[0];
      assert (a + b)[1..] == a[1..] + b;
      RemoveNewlinesAppend(a[1..], b);
    }
  }

  /** Text without newlines is left as it is. */
  lemma {:induction false} RemoveNoNewlines(s: string)
    requires '\n' !in s
    ensures RemoveNewlines(s) == s
  {
    if |s| > 0 {
      assert '\n' !in s[1..];
      RemoveNoNewlines(s[1..]);
      assert [s[0]] + s[1..] == s;
    }
  }
}
